=== FILE: README.md ===
# Duel game core in Dafny

A model of the game logic of "Duelo no Oeste", a one-screen arcade duel in
which two gunslingers face off, one shot per cooldown window, and the first
hit wins. Everything here models the `Game` class in `main.py`:

- the session state machine: the phases `menu`, `countdown`, `duel`,
  `result` and `achievements`, the ten-round arcade mode against a scripted
  opponent, and the best-of-five versus mode;
- the duel: the shared 300 ms fire cooldown, bullets, collision, the
  opponent's trigger, and the animation reset;
- difficulty and reaction curves as functions of the arcade round;
- the achievement ledger: unlocking, the arcade and daily checks, and the
  new-day reset.

Each step is a pure function over an immutable `Game` value. The step takes
the frame's clock sample `now` (ms) and, where the opponent may fire, its
random draw. This makes every `update`, `fire_shot` or input event a
deterministic transition.

Conventions:

- Horizontal positions and speeds are integers in tenths of a pixel, so the
  source's float arithmetic on them is exact.
  - Player 1's right edge is `2W + 2000`.
  - Player 2's left edge is `8W - 2000`.
  - The screen bound is `10W`, for a width of `W` pixels.
  - A bullet moves `25·d` per frame, where `d` is the difficulty in tenths.
- Difficulty `min(10.0, 1.0 + 0.9·r)` is `min(100, 10 + 9·r)` tenths.
- The opponent's draw is an integer `u` standing for
  `floor(1000 · random())`. The source's `random() < 0.03 · difficulty` is
  then exactly `u < 3·d`.
- Sounds and ledger saves go into an append-only effect log. Each save
  carries a snapshot of the ledger as it was written.
- The stored last-play date is `Option<int>`, a day number. `None` means
  missing, empty or unparsable.

Modules: `Basics` (option, `max`/`min`, Python's truncating `int(ms / 1000)`),
`Achievements`, `GameState`, `Difficulty`, `Session`, `Physics`, `Input`,
`Properties` (invariant and scenarios).

In several places the code behaves differently from what a reader of the
game, or of the source's own comments, might expect. The model follows the
code:

- **Several hits in one frame.** The collision loop does not stop after a
  hit. Every hitting bullet in the same frame calls `end_duel` again, and
  the last one decides the winner. A run reaches this only in arcade: the
  opponent fires at the end of one frame, player 1 at least 300 ms later
  in the next, and both bullets strike on their first move; the loss and
  the win are both booked and player 1 is recorded as the winner
  (`Properties.DoubleResolutionInOneTick`).
- **Opponent fires after the result.** The opponent's trigger still runs in
  the frame in which the duel resolved. It can fire there and overwrite the
  struck opponent's `dead` pose with `shoot`
  (`Properties.StruckOpponentMayStillShoot`).
- **The opponent's reaction gate reads the wrong clock.** It reads
  `last_shot_time`, and only player 1's shots set that. The opponent's own
  shots do not (`Properties.OpponentGateIgnoresOwnShots`).
- **Arcade losses replay the round.** An arcade loss starts the same round
  again rather than ending the run.
- **`pvp_winner` is for player 1 only.** It unlocks only when player 1
  reaches five points (`Properties.PvpWinnerOnlyForPlayerOne`).
- **`no_miss` counts the opponent's shots.** `shots_fired` counts both
  sides, but `shots_hit` counts only player 1's hits. Once a player-2 shot
  is accepted in a live duel, the duel ends without granting `no_miss`
  (`Properties.PlayerTwoShotOpensGap`, `Properties.DuelTickKeepsGap`,
  `Properties.GapWithholdsNoMiss`).
- **Strict gates, no clamping.** The opponent's gates are strict (`> 100`,
  `> reaction`). The first gate is 100 ms, although its comment says 300.
  Negative time differences are not clamped.
- **Daily counters are not saved on their own.** The ledger is written only
  on an unlock, on a daily reset, and when loading fails. Daily counter
  increments are not saved by themselves. The date stamped by the daily
  check is written only by the next save.

## Model

| member | source | states |
|---|---|---|
| Basics.WholeSeconds | main.py:316 | `int(elapsed / 1000)` rounds toward zero: for non-negative input it is the number of whole seconds, for negative input it is rounded up |
| Achievements.Lookup | main.py:122-133 | a name maps to an achievement only when it is one of the ten ledger keys, and then to the achievement stored under that key |
| Achievements.KeyInjective | main.py:122-133 | no two achievements share a ledger key |
| Achievements.Grant | main.py:442-447 | unlocking sets exactly the one flag; when it was locked the ledger is saved once with the new flag and one achievement sound plays; an unlocked flag leaves everything unchanged |
| Achievements.Unlock | main.py:442-447 | only a known key can change, only from locked to unlocked; counters and date are untouched; when no flag changes nothing changes |
| Achievements.UnlockEffects | main.py:444-447 | an unlock that changes a flag appends exactly one save and one achievement sound to the log, and one that does not appends none |
| Achievements.UnlockIdempotent | main.py:444 | unlocking the same key twice equals unlocking it once: no second save, no second sound |
| Achievements.CheckDaily | main.py:431-440 | afterwards a flag is set exactly when it was set before or is `daily_win` with at least 1 win today, `daily_5wins` with at least 5, or `daily_10shots` with at least 10 shots |
| Achievements.ResetDaily | main.py:210-217 | both daily counters become zero, exactly the three daily flags are cleared, all other flags and the date are kept, and the ledger is saved once |
| Achievements.CheckDailyReset | main.py:193-208 | on a new day (stored date missing, unparsable or strictly earlier) the result is the daily reset, otherwise the ledger is kept; in both cases today's date is stamped |
| Achievements.DailyResetIff | main.py:198-206 | a reset (a save) happens if and only if the stored date is missing, unparsable or before today; the same day (or a later stored date) keeps counters and flags; a new day zeroes the counters and clears the daily flags |
| Achievements.SameDayReplay | main.py:193-208 | running the daily check twice on the same day equals running it once |
| Achievements.PermanentFlagsSurvive | main.py:210-217 | a non-daily flag that is set stays set across a new day |
| Achievements.Boot | main.py:449-457 | at start-up today's date is stamped; without a readable file the ledger is all flags locked with zero counters; with a file dated today the file's ledger is kept and nothing is written |
| Achievements.BootWithoutFile | main.py:451-457 | with no readable file the default ledger is written by the load fallback and again by the daily reset that the missing date triggers |
| GameState.Layout | main.py:163-164 | the sprites lie within the screen from 250 pixels of width on, and player 1's right edge is left of player 2's left edge exactly when the screen is wider than 666 pixels |
| GameState.ResetGame | main.py:149-157 | back to the menu with no mode, round 1, zero wins and scores and a fresh duel; the ledger is kept |
| GameState.StartDuel | main.py:253-260 | a fresh duel in countdown starting at `now` with count 3; mode, round, scores and ledger are kept; one click sound |
| GameState.NewGame | main.py:111-143 | the constructed game is the reset session: in the menu with no mode at round 1, zero arcade wins and scores and a fresh duel; its ledger is the start-up ledger |
| Difficulty.DifficultyTenths | main.py:262-267 | difficulty lies in [1.0, 10.0]; it is 1.0 outside arcade mode and 10.0 from round 10 on |
| Difficulty.DifficultyMonotone | main.py:264-266 | difficulty does not decrease as the arcade round grows |
| Difficulty.ReactionMs | main.py:269-274 | the reaction time is at least 100 ms; it is 1000 ms outside arcade mode, at most 500 ms in arcade, and 100 ms from round 10 on |
| Difficulty.ReactionMonotone | main.py:271-273 | the reaction time does not increase as the arcade round grows |
| Difficulty.BulletSpeed | main.py:287 | bullet speed is 25 pixels per frame times the difficulty, between 25 and 250 pixels |
| Difficulty.FireChance | main.py:349 | of the 1000 equally likely draws exactly `3·d` fire, so the chance per frame is `0.03 · difficulty`, between 3% and 30% |
| Session.CheckArcade | main.py:408-429 | after an arcade win a flag is set exactly when it was set before or its condition holds (round at least 5 or 10, at least 10 wins, won within 1000 ms of the duel start, all shots hit, first win); counters and date unchanged |
| Session.EndDuel | main.py:367-386 | the duel is resolved; a player-1 win adds a daily win and, by mode, an arcade win or a player-1 point; otherwise player 2 scores in pvp; `pvp_winner` is set exactly when it was before or player 1 reaches 5 in pvp; an arcade win sets exactly the daily and arcade flags whose conditions hold, a pvp win exactly the daily flags and `pvp_winner`; a loss unlocks nothing; the duel record is untouched |
| Session.RoundTransition | main.py:388-405 | an arcade win advances the round and restarts, or returns to the menu once the round exceeds 10; an arcade loss replays the same round; pvp restarts while both scores are below 5 and otherwise returns to the menu; scores and ledger unchanged |
| Session.StartMode | main.py:241-251 | choosing a mode resets the session (round 1, zero wins and scores) in that mode and starts the first duel's countdown at `now` |
| Physics.Advance | main.py:326-327 | every bullet moves by its own speed, keeps its speed and owner, and the number of bullets of each side is unchanged |
| Physics.Cull | main.py:340-342 | the kept bullets are exactly those within `[0, W]`; a single bullet is kept exactly when on screen; none is added and no side gains bullets |
| Physics.CullAppend | main.py:340-342 | culling is piecewise: the kept bullets of `xs + ys` are those of `xs` followed by those of `ys`, so the kept bullets stay in list order, each once |
| Physics.P2StruckBound | main.py:330-333 | the hits registered on player 2 in one pass are at most player 1's bullets, and there is at least one exactly when some bullet strikes player 2 |
| Physics.P1StruckBound | main.py:335-337 | the strikes on player 1 in one pass are at most player 2's bullets, and there is at least one exactly when some bullet strikes player 1 |
| Physics.Strike | main.py:330-338 | a player-1 bullet past player 2's left edge kills player 2, makes player 1 winner, counts a hit and runs `end_duel`; a player-2 bullet left of player 1's right edge kills player 1, makes player 2 winner and runs `end_duel`; any other bullet changes nothing |
| Physics.Resolve | main.py:326-338 | over the whole pass: hits counted equal the strikes on player 2; every strike books its side's win (daily wins and arcade wins or player-1 points by the strikes on player 2, player-2 points by the strikes on player 1); any strike resolves the duel and a struck side is dead; the last striking bullet's side is the winner, so strikes on one side only make the other side winner; without strikes nothing changes; flags only grow |
| Physics.Collide | main.py:326-342 | moving, checking and culling in one pass: the duel has a result exactly when some moved bullet strikes; each strike books its side's win; the last striker is the winner; the kept bullets are the culled moved ones; without strikes only the bullets change |
| Physics.FireShot | main.py:276-307 | within 300 ms of the last shot of either side nothing changes; otherwise the cooldown clock becomes `now`, `shots_fired` and `daily_shots` grow by exactly 1, exactly one bullet is appended (from player 1's right edge with positive speed, or from player 2's left edge with negative speed), the shooter poses, only player 1 moves `last_shot_time`, and the daily flags are re-evaluated |
| Physics.OpponentFires | main.py:345-349 | whatever the round, the trigger needs arcade mode, more than 100 ms of duel, more than 100 ms since player 1's last shot and a draw below 300; with more than 1000 ms since player 1's last shot and a draw below 30 it is always allowed |
| Physics.OpponentTurn | main.py:344-357 | a shot happens exactly when the trigger allows it and the shared cooldown has passed; it appends player 2's bullet at player 2's left edge moving left, counts in both shot counters and the daily shots, adds exactly the daily flags whose threshold is now met, sets the cooldown clock and shows the shoot pose while player 1's pose is kept; otherwise only the animation reset applies; wins, scores and hits are untouched |
| Physics.SettlePoses | main.py:352-357 | more than 200 ms after the last shot each combatant that is not dead is idle and a dead one stays dead; otherwise poses are kept |
| Physics.CountdownTick | main.py:314-321 | the state becomes `duel` with `duel_start_time = now` exactly when at least 3000 ms elapsed, otherwise it stays in countdown; for non-negative elapsed time the count lies in [0, 3] and is the number of seconds still to go, rounded up; nothing but the state, the displayed count, `duel_start_time` and (on the transition) one click sound changes |
| Physics.DuelTick | main.py:324-357 | the result, winner, hits, wins and scores are those of the collision pass (so the duel resolves exactly when a moved bullet strikes); then the opponent's shot is added exactly when its trigger allows and the shared cooldown has passed (never outside arcade), from player 2's left edge moving left, with its shot counted, the daily flags whose threshold is now met added, player 1's pose kept and the shoot pose shown; without a shot the frame is the collision pass followed by the animation reset; the cooldown clock `last_shot` is set to `now` exactly when the opponent fires and kept otherwise; a player struck in the pass stays dead, except the opponent when it fires in that frame; `last_shot_time` is untouched; after 200 ms nobody is left in the shoot pose; `duel_start_time`, the countdown fields, width, mode and round are untouched |
| Physics.ResultTick | main.py:360-365 | on the result screen the bullets are the moved ones still on screen and nothing else changes |
| Physics.Tick | main.py:309-365 | `update` runs the branch of the current phase; menu and achievements frames change nothing; width, mode and round are kept and flags only grow |
| Input.Handle | main.py:658-717 | fire is accepted only in `duel`, continue only in `result`, mode choice and the achievements screen only in `menu`, back only from the achievements screen; countdown ignores input; the loop stops exactly on the close event or on Escape in the menu |
| Input.HandleAll | main.py:660-694 | a single event is handled as by `Handle`; a close event always stops the loop, only close or back can stop it, and without either the loop keeps running |
| Input.HandleAllAppend | main.py:660-694 | handling events `xs + ys` is handling `xs` and then, if the loop still runs, `ys` from the resulting state: events are handled one by one, in order, and stop at the first that ends the loop |
| Input.Frame | main.py:724-727 | one pass of the main loop handles the frame's events and then runs `update` on the resulting state, even when an event stopped the loop; a close event stops it; no flag is cleared |
| Properties.NewGameValid | main.py:111-143 | a freshly constructed game satisfies the state invariant |
| Properties.TickValid | main.py:309-365 | every `update` keeps the invariant: round at least 1, no fired shot during a countdown, nobody dead and no winner in a live duel, a winner on every result, bullets heading away from their shooter, and hits plus live player-1 bullets at most shots fired |
| Properties.DuelTickValid | main.py:324-357 | a duel frame keeps the invariant |
| Properties.CollideValid | main.py:326-342 | the collision pass of a live duel keeps the invariant: the duel either goes on with no more player-1 bullets in flight or has a result with a winner |
| Properties.OpponentTurnValid | main.py:344-357 | the opponent's shot and the animation reset keep the invariant |
| Properties.HandleValid | main.py:696-717 | every input event keeps the state invariant |
| Properties.FireShotValid | main.py:276-307 | an accepted or ignored shot in a live duel keeps the invariant: the new bullet heads away from its shooter and the shot count grows with the player-1 bullets |
| Properties.HandleAllValid | main.py:660-694 | all of a frame's events, handled in order, keep the invariant |
| Properties.FrameValid | main.py:724-727 | a whole pass of the main loop keeps the state invariant |
| Properties.SharedCooldown | main.py:279-282 | within one batch of events, once a shot of either side is accepted, a shot of either side less than 300 ms later is ignored |
| Properties.CooldownHoldsEvents | main.py:279-282 | less than 300 ms after the last accepted shot, no sequence of events changes a live duel |
| Properties.CooldownHoldsFrame | main.py:276-352 | less than 300 ms after the last accepted shot, a whole main-loop pass (events and `update`, including the opponent's trigger) accepts no shot: the cooldown clock and shot count stay and no bullet is added |
| Properties.CooldownWindow | main.py:279-282 | over any run of frames whose clock samples all lie within 300 ms of the last accepted shot, no shot of either side is accepted |
| Properties.FirstBloodScenario | main.py:367-394 | arcade round 1 with player 1's only bullet reaching the opponent: player 1 wins, `first_blood` unlocks, and continuing starts round 2 |
| Properties.PvpMatchPointScenario | main.py:379-405 | versus at 4 to 3 won by player 1: score 5 to 3, `pvp_winner` unlocks, and continuing returns to the menu |
| Properties.PvpWinnerOnlyForPlayerOne | main.py:383-386 | player 2 reaching 5 ends the match without unlocking `pvp_winner` |
| Properties.NoMissCountsOpponentShots | main.py:425-426 | an arcade win with fewer hits than shots fired does not unlock `no_miss` |
| Properties.PlayerTwoShotOpensGap | main.py:279-307 | an accepted player-2 shot in a live duel leaves player 1's hits plus live bullets strictly below the shots fired |
| Properties.HandleKeepsGap | main.py:681-685 | input during the duel keeps it live and keeps that gap |
| Properties.HandleAllKeepsGap | main.py:660-694 | all of a frame's events during the duel keep it live and keep the gap |
| Properties.DuelTickKeepsGap | main.py:324-357 | a duel frame that does not resolve keeps the gap, and opens it when the opponent fires |
| Properties.EndDuelWithholdsNoMiss | main.py:367-386 | `end_duel` with fewer hits than shots never grants `no_miss`, in any mode |
| Properties.ResolveWithholdsNoMiss | main.py:326-338 | while hits plus remaining player-1 strikes stay below the shots fired, no `end_duel` of the collision pass grants `no_miss` |
| Properties.DuelTickWithholdsNoMiss | main.py:324-357 | with the gap open, the frame that resolves the duel does not grant `no_miss` |
| Properties.NoMissOnlyAtResolution | main.py:660-694 | events during the duel never grant `no_miss` |
| Properties.GapWithholdsNoMiss | main.py:324-357 | once the gap is open, any sequence of main-loop passes up to the duel's end leaves `no_miss` locked; with the two lemmas above, an arcade duel in which player 2 fired never earns it |
| Properties.OpponentGateIgnoresOwnShots | main.py:345-348 | a player-2 shot leaves the opponent's trigger condition unchanged: its reaction gate reads only player 1's shot time |
| Properties.DoubleResolutionInOneTick | main.py:326-338 | in arcade, when the opponent's unmoved bullet is in flight and player 1 fires after the cooldown on a screen whose gap one move crosses, that frame's pass resolves the duel twice: both players dead, one hit, one arcade win and one daily win booked, and player 1 recorded as winner |
| Properties.StruckOpponentMayStillShoot | main.py:344-357 | if the opponent's trigger succeeds in the frame in which it is struck, it is left in the shoot pose on the result screen, and one more shot is counted |

## Left out

- Pygame start-up, the display and `AssetManager` are left out: they are I/O with fallback assets. Fonts are left out too.
- All drawing, the button rectangles and touch-coordinate mapping are left out: they are presentation. Input is modelled as abstract actions (`Input.Action`).
- Music (`play_music`, `stop_music`, `current_music`, volume) is left out. Sounds appear only as log entries.
- Reading and writing `achievements.json` is left out: it is file I/O. A save is a `Save` entry carrying the ledger snapshot. A load is given as an `Option<Ledger>`, where `None` means missing or unreadable. A file whose flag map has other keys, or a partial daily record, is not modelled.
- Date parsing and formatting (`strptime`/`strftime`) are left out: they are library calls. Dates are day numbers.
- `random.random()` is left out. It is replaced by the integer draw described above.
- Float rounding of positions, difficulty and the fire probability is left out. Tenths make the values exact.
- Vertical positions (the bullet `y`, the ground line) are left out. They only affect drawing.
- The source reads the clock separately in `fire_shot` (main.py:278), `start_duel`, `check_achievements` and `update` (main.py:311). The model takes one clock sample per pass of the main loop, shared by that pass's events and its `update`; the milliseconds that pass between those reads are not modelled.
- `arcade_score` is left out: it is set but never read.
- The `main` loop's frame pacing (`clock.tick`) and process exit are left out.
- Physics.CountdownTick: bounds the displayed count only for non-negative elapsed time. With a clock that ran backwards by more than a second, the source's expression would exceed 3.

=== FILE: achievements.dfy ===
/** The achievement ledger: ten named flags plus the daily sub-record
    (last play date, wins today, shots today), and the operations that
    unlock a flag, re-evaluate the daily thresholds and start a new day.

    Side effects the source performs while mutating the ledger are kept in
    an append-only log: every `save_achievements` call becomes a `Save`
    carrying the ledger as it was written, and every `play_sound` call a
    `Sound`. Reading the file back is not modelled (see README). */
module Achievements {
  import opened Basics

  datatype Achievement =
    | Round5 | Round10 | FastWinner | Perfect10 | NoMiss | FirstBlood
    | PvpWinner | DailyWin | Daily5Wins | Daily10Shots

  /** The key under which the flag is stored in the ledger file. */
  function Key(a: Achievement): string
  {
    match a
    case Round5 => "round_5"
    case Round10 => "round_10"
    case FastWinner => "fast_winner"
    case Perfect10 => "perfect_10"
    case NoMiss => "no_miss"
    case FirstBlood => "first_blood"
    case PvpWinner => "pvp_winner"
    case DailyWin => "daily_win"
    case Daily5Wins => "daily_5wins"
    case Daily10Shots => "daily_10shots"
  }

  /** The achievement a key names, if it names one (`name in self.achievements`). */
  function Lookup(name: string): (r: Option<Achievement>)
    ensures r.Some? ==> Key(r.value) == name
  {
    if name == "round_5" then Some(Round5)
    else if name == "round_10" then Some(Round10)
    else if name == "fast_winner" then Some(FastWinner)
    else if name == "perfect_10" then Some(Perfect10)
    else if name == "no_miss" then Some(NoMiss)
    else if name == "first_blood" then Some(FirstBlood)
    else if name == "pvp_winner" then Some(PvpWinner)
    else if name == "daily_win" then Some(DailyWin)
    else if name == "daily_5wins" then Some(Daily5Wins)
    else if name == "daily_10shots" then Some(Daily10Shots)
    else None
  }

  /** Every key the ledger stores is recognised again as the same achievement. */
  lemma LookupKey(a: Achievement)
    ensures Lookup(Key(a)) == Some(a)
  {
  }

  /** Keys are distinct, so no two achievements share a ledger slot. */
  lemma KeyInjective(a: Achievement, b: Achievement)
    ensures Key(a) == Key(b) ==> a == b
  {
    LookupKey(a);
    LookupKey(b);
  }

  /** The three flags a new calendar day clears. */
  const DailyOnes: set<Achievement> := {DailyWin, Daily5Wins, Daily10Shots}

  /** Unlocked flags, the stored last play date as a day number (`None`
      when the stored text is missing, empty or unparsable), and the two
      daily counters. */
  datatype Ledger = Ledger(unlocked: set<Achievement>, lastPlay: Option<int>,
                           dailyWins: nat, dailyShots: nat)

  /** The ledger the game starts from when no file can be read. */
  const DefaultLedger: Ledger := Ledger({}, None, 0, 0)

  datatype Sfx = ShotSfx | WinSfx | LoseSfx | ClickSfx | AchievementSfx

  datatype Effect = Sound(sfx: Sfx) | Save(snapshot: Ledger)

  /** The ledger together with the log of effects emitted so far. */
  datatype Journal = Journal(ledger: Ledger, log: seq<Effect>)

  /** Appends one effect to the log. */
  function Emit(j: Journal, e: Effect): Journal
  {
    j.(log := j.log + [e])
  }

  /** Number of `Save` effects in a log. */
  function SaveCount(log: seq<Effect>): nat
  {
    if log == [] then 0
    else SaveCount(log[..|log| - 1]) + (if log[|log| - 1].Save? then 1 else 0)
  }

  /** Number of achievement sounds in a log. */
  function ChimeCount(log: seq<Effect>): nat
  {
    if log == [] then 0
    else ChimeCount(log[..|log| - 1]) + (if log[|log| - 1] == Sound(AchievementSfx) then 1 else 0)
  }

  lemma {:induction false} CountsOfAppend(log: seq<Effect>, more: seq<Effect>)
    ensures SaveCount(log + more) == SaveCount(log) + SaveCount(more)
    ensures ChimeCount(log + more) == ChimeCount(log) + ChimeCount(more)
    decreases |more|
  {
    if more == [] {
      assert log + more == log;
    } else {
      var init := more[..|more| - 1];
      assert (log + more)[..|log + more| - 1] == log + init;
      assert (log + more)[|log + more| - 1] == more[|more| - 1];
      CountsOfAppend(log, init);
    }
  }

  lemma CountsOfSingleton(e: Effect)
    ensures SaveCount([e]) == (if e.Save? then 1 else 0)
    ensures ChimeCount([e]) == (if e == Sound(AchievementSfx) then 1 else 0)
  {
    assert [e][..0] == [];
  }

  /** Unlocks one achievement: a locked flag becomes true, the ledger is
      saved and the achievement sound plays; an unlocked flag is left as is. */
  function Grant(j: Journal, a: Achievement): (r: Journal)
    ensures r.ledger.unlocked == j.ledger.unlocked + {a}
    ensures r.ledger == j.ledger.(unlocked := r.ledger.unlocked)
    ensures a in j.ledger.unlocked ==> r == j
    ensures a !in j.ledger.unlocked ==> r.log == j.log + [Save(r.ledger), Sound(AchievementSfx)]
  {
    if a in j.ledger.unlocked then j
    else
      var l := j.ledger.(unlocked := j.ledger.unlocked + {a});
      Journal(l, j.log + [Save(l), Sound(AchievementSfx)])
  }

  /** `unlock_achievement(name)`: only a known, still-locked key changes,
      and only from locked to unlocked. */
  function Unlock(j: Journal, name: string): (r: Journal)
    ensures Lookup(name).None? ==> r == j
    ensures Lookup(name).Some? ==> r.ledger.unlocked == j.ledger.unlocked + {Lookup(name).value}
    ensures r.ledger.lastPlay == j.ledger.lastPlay
    ensures r.ledger.dailyWins == j.ledger.dailyWins && r.ledger.dailyShots == j.ledger.dailyShots
    ensures r.ledger.unlocked == j.ledger.unlocked ==> r == j
  {
    match Lookup(name)
    case None => j
    case Some(a) => Grant(j, a)
  }

  /** An unlock records exactly one save and one sound when it changes a
      flag, and none otherwise. */
  lemma UnlockEffects(j: Journal, name: string)
    ensures var r := Unlock(j, name);
      && j.log <= r.log
      && SaveCount(r.log) == SaveCount(j.log) + (if r.ledger.unlocked == j.ledger.unlocked then 0 else 1)
      && ChimeCount(r.log) == ChimeCount(j.log) + (if r.ledger.unlocked == j.ledger.unlocked then 0 else 1)
  {
    var r := Unlock(j, name);
    if r.ledger.unlocked != j.ledger.unlocked {
      var a := Lookup(name).value;
      assert r.log == j.log + [Save(r.ledger)] + [Sound(AchievementSfx)];
      CountsOfAppend(j.log + [Save(r.ledger)], [Sound(AchievementSfx)]);
      CountsOfAppend(j.log, [Save(r.ledger)]);
      CountsOfSingleton(Save(r.ledger));
      CountsOfSingleton(Sound(AchievementSfx));
    }
  }

  /** Unlocking twice is the same as unlocking once: the second call finds
      the flag set and writes and plays nothing. */
  lemma UnlockIdempotent(j: Journal, name: string)
    ensures Unlock(Unlock(j, name), name) == Unlock(j, name)
  {
  }

  /** Whether the daily counters have reached the threshold of a daily achievement. */
  predicate DailyThresholdMet(a: Achievement, l: Ledger)
  {
    match a
    case DailyWin => l.dailyWins >= 1
    case Daily5Wins => l.dailyWins >= 5
    case Daily10Shots => l.dailyShots >= 10
    case _ => false
  }

  /** `check_daily_achievements`: afterwards a flag is set exactly when it
      was set before or is a daily achievement whose threshold is met. */
  function CheckDaily(j: Journal): (r: Journal)
    ensures forall a :: a in r.ledger.unlocked <==> a in j.ledger.unlocked || DailyThresholdMet(a, j.ledger)
    ensures r.ledger == j.ledger.(unlocked := r.ledger.unlocked)
    ensures j.log <= r.log
  {
    var j1 := if j.ledger.dailyWins >= 1 then Grant(j, DailyWin) else j;
    var j2 := if j1.ledger.dailyWins >= 5 then Grant(j1, Daily5Wins) else j1;
    if j2.ledger.dailyShots >= 10 then Grant(j2, Daily10Shots) else j2
  }

  /** `reset_daily_achievements`: both counters zeroed, exactly the three
      daily flags cleared, everything else kept, and one save. */
  function ResetDaily(j: Journal): (r: Journal)
    ensures r.ledger.dailyWins == 0 && r.ledger.dailyShots == 0
    ensures r.ledger.unlocked == j.ledger.unlocked - DailyOnes
    ensures r.ledger.lastPlay == j.ledger.lastPlay
    ensures r.log == j.log + [Save(r.ledger)]
  {
    var l := Ledger(j.ledger.unlocked - {DailyWin, Daily5Wins, Daily10Shots}, j.ledger.lastPlay, 0, 0);
    Journal(l, j.log + [Save(l)])
  }

  /** Whether a stored last play date starts a new day: missing or
      unparsable, or strictly earlier than today. */
  predicate IsNewDay(stored: Option<int>, today: int)
  {
    stored.None? || stored.value < today
  }

  /** `check_daily_reset` for the calendar day `today`: resets exactly on
      a new day, and stamps today's date in every case. */
  function CheckDailyReset(j: Journal, today: int): (r: Journal)
    ensures r.ledger.lastPlay == Some(today)
    ensures IsNewDay(j.ledger.lastPlay, today) ==>
      r == ResetDaily(j).(ledger := ResetDaily(j).ledger.(lastPlay := Some(today)))
    ensures !IsNewDay(j.ledger.lastPlay, today) ==>
      r == j.(ledger := j.ledger.(lastPlay := Some(today)))
  {
    var j1 :=
      match j.ledger.lastPlay
      case None => ResetDaily(j)
      case Some(d) => if d < today then ResetDaily(j) else j;
    j1.(ledger := j1.ledger.(lastPlay := Some(today)))
  }

  /** The daily counters survive the check exactly when the stored date is
      today or later; on a new day they are zero and the daily flags clear. */
  lemma DailyResetIff(j: Journal, today: int)
    ensures var r := CheckDailyReset(j, today);
      && (IsNewDay(j.ledger.lastPlay, today) <==> r.log != j.log)
      && (!IsNewDay(j.ledger.lastPlay, today) ==>
            r.ledger.dailyWins == j.ledger.dailyWins && r.ledger.dailyShots == j.ledger.dailyShots
            && r.ledger.unlocked == j.ledger.unlocked)
      && (IsNewDay(j.ledger.lastPlay, today) ==>
            r.ledger.dailyWins == 0 && r.ledger.dailyShots == 0
            && r.ledger.unlocked == j.ledger.unlocked - DailyOnes)
  {
    var r := CheckDailyReset(j, today);
    if IsNewDay(j.ledger.lastPlay, today) {
      assert r.log == j.log + [Save(ResetDaily(j).ledger)];
      assert |r.log| == |j.log| + 1;
    }
  }

  /** Running the check a second time on the same day changes nothing. */
  lemma SameDayReplay(j: Journal, today: int)
    ensures CheckDailyReset(CheckDailyReset(j, today), today) == CheckDailyReset(j, today)
  {
  }

  /** A flag other than the three daily ones is never cleared by a new day. */
  lemma PermanentFlagsSurvive(j: Journal, today: int, a: Achievement)
    requires a in j.ledger.unlocked && a !in DailyOnes
    ensures a in CheckDailyReset(j, today).ledger.unlocked
  {
  }

  /** Start-up: the file's ledger, or the default one (saved at once) when
      the file is missing or unreadable, then the daily check for `today`. */
  function Boot(loaded: Option<Ledger>, today: int): (r: Journal)
    ensures r.ledger.lastPlay == Some(today)
    ensures loaded.None? ==> r.ledger == Ledger({}, Some(today), 0, 0)
    ensures loaded.Some? && !IsNewDay(loaded.value.lastPlay, today) ==>
      r.ledger == loaded.value.(lastPlay := Some(today)) && r.log == []
  {
    var j0 :=
      match loaded
      case None => Journal(DefaultLedger, [Save(DefaultLedger)])
      case Some(l) => Journal(l, []);
    CheckDailyReset(j0, today)
  }

  /** Start-up without a readable file: every flag locked, both counters
      zero, today's date stamped, and the ledger written twice (once by the
      load fallback, once by the daily reset the missing date triggers). */
  lemma BootWithoutFile(today: int)
    ensures Boot(None, today).ledger == Ledger({}, Some(today), 0, 0)
    ensures SaveCount(Boot(None, today).log) == 2
  {
    var r := Boot(None, today);
    assert r.log == [Save(DefaultLedger)] + [Save(DefaultLedger)];
    CountsOfAppend([Save(DefaultLedger)], [Save(DefaultLedger)]);
    CountsOfSingleton(Save(DefaultLedger));
  }
}

=== FILE: basics.dfy ===
/** Small shared vocabulary: an optional value and the integer helpers the
    game's arithmetic needs (Python's `max`, `min` and `int(ms / 1000)`). */
module Basics {

  /** A value that may be absent, the model of Python's `None`. */
  datatype Option<+T> = None | Some(value: T)

  function Max(a: int, b: int): (r: int)
    ensures r >= a && r >= b
    ensures r == a || r == b
  {
    if a >= b then a else b
  }

  function Min(a: int, b: int): (r: int)
    ensures r <= a && r <= b
    ensures r == a || r == b
  {
    if a <= b then a else b
  }

  /** Python's `int(ms / 1000)`: whole seconds in `ms` milliseconds,
      rounded toward zero (Dafny's own `/` rounds toward minus infinity
      for a negative dividend). */
  function WholeSeconds(ms: int): (q: int)
    ensures ms >= 0 ==> q >= 0 && q * 1000 <= ms < (q + 1) * 1000
    ensures ms < 0 ==> q <= 0 && (q - 1) * 1000 < ms <= q * 1000
  {
    if ms >= 0 then ms / 1000 else -((-ms) / 1000)
  }
}

=== FILE: difficulty.dfy ===
/** Difficulty scaling and the opponent's reaction model, as pure
    functions of the mode and the arcade round.

    Difficulty is kept in tenths: the source's `min(10.0, 1.0 + 0.9 * r)`
    is `min(100, 10 + 9 * r)` tenths. The opponent's random draw is an
    integer `u` standing for `floor(1000 * random.random())`; the source's
    test `random() < 0.03 * difficulty` is then exactly `u < 3 * d` with
    `d` the difficulty in tenths. */
module Difficulty {
  import opened Basics
  import opened GameState

  /** `calculate_difficulty`, in tenths. */
  function DifficultyTenths(mode: Option<Mode>, round: nat): (d: nat)
    ensures 10 <= d <= 100
    ensures mode != Some(Arcade) ==> d == 10
    ensures mode == Some(Arcade) && round >= MaxRounds ==> d == 100
  {
    if mode == Some(Arcade) then Min(100, 10 + 9 * round) else 10
  }

  /** Difficulty never drops as the arcade round grows. */
  lemma DifficultyMonotone(r1: nat, r2: nat)
    requires r1 <= r2
    ensures DifficultyTenths(Some(Arcade), r1) <= DifficultyTenths(Some(Arcade), r2)
  {
  }

  /** `calculate_ai_reaction_time`, in milliseconds. */
  function ReactionMs(mode: Option<Mode>, round: nat): (t: nat)
    ensures 100 <= t <= 1000
    ensures mode != Some(Arcade) ==> t == 1000
    ensures mode == Some(Arcade) ==> t <= 500 && (round >= MaxRounds ==> t == 100)
  {
    if mode == Some(Arcade) then Max(100, 500 - 40 * round) else 1000
  }

  /** The reaction window never grows as the arcade round grows. */
  lemma ReactionMonotone(r1: nat, r2: nat)
    requires r1 <= r2
    ensures ReactionMs(Some(Arcade), r2) <= ReactionMs(Some(Arcade), r1)
  {
  }

  /** Bullet speed magnitude per tick, in tenths of a pixel:
      `BASE_BULLET_SPEED * calculate_difficulty()`, 25 pixels at
      difficulty 1.0. */
  function BulletSpeed(mode: Option<Mode>, round: nat): (v: nat)
    ensures 250 <= v <= 2500
    ensures v * 10 == 250 * DifficultyTenths(mode, round)
  {
    25 * DifficultyTenths(mode, round)
  }

  /** Whether the draw `u` (that is, `floor(1000 * random())`) makes the
      per-tick Bernoulli trial succeed. */
  predicate DrawFires(u: int, mode: Option<Mode>, round: nat)
  {
    u < 3 * DifficultyTenths(mode, round)
  }

  /** The draws `0, 1, ..., n - 1`. */
  function Draws(n: nat): (r: set<int>)
    ensures forall u :: u in r <==> 0 <= u < n
  {
    if n == 0 then {} else Draws(n - 1) + {n - 1}
  }

  lemma {:induction false} DrawsSize(n: nat)
    ensures |Draws(n)| == n
  {
    if n > 0 {
      DrawsSize(n - 1);
      assert n - 1 !in Draws(n - 1);
    }
  }

  /** Out of the 1000 equally likely draws, exactly `3 * d` fire: the
      opponent's per-tick chance is `0.03 * difficulty`, 3% at difficulty
      1.0 and 30% at the cap. */
  lemma FireChance(mode: Option<Mode>, round: nat)
    ensures |set u | u in Draws(1000) && DrawFires(u, mode, round)| == 3 * DifficultyTenths(mode, round)
    ensures 30 <= 3 * DifficultyTenths(mode, round) <= 300
  {
    var k := 3 * DifficultyTenths(mode, round);
    assert (set u | u in Draws(1000) && DrawFires(u, mode, round)) == Draws(k);
    DrawsSize(k);
  }
}

=== FILE: gamestate.dfy ===
/** The state the `Game` object holds outside of drawing and audio: the
    session (mode, screen, round, scores), the current duel, the countdown
    and the achievement journal, plus the setup steps `reset_game_state`,
    `reset_duel_state` and `start_duel`.

    Horizontal positions and speeds are integers in TENTHS of a pixel, so
    the source's `SCREEN_WIDTH * 0.2`, `SCREEN_WIDTH * 0.8 - 200` and
    `25 * difficulty` are exact. Vertical positions only matter for drawing
    and are left out. */
module GameState {
  import opened Basics
  import opened Achievements

  datatype Mode = Arcade | Pvp

  /** The source's `game_state` strings "menu", "countdown", "duel",
      "result" and "achievements". */
  datatype Phase = Menu | Countdown | Duel | Result | AchievementsView

  datatype Side = P1 | P2

  /** Animation state of a combatant. */
  datatype Pose = Idle | Shoot | Dead

  /** A bullet: horizontal position and signed speed per tick, in tenths
      of a pixel, and the side that fired it. */
  datatype Bullet = Bullet(x: int, speed: int, owner: Side)

  /** Everything `reset_duel_state` resets. Times are in milliseconds. */
  datatype DuelState = DuelState(
    pose1: Pose,
    pose2: Pose,
    bullets: seq<Bullet>,
    lastShot: int,        // shared cooldown clock, set by either side
    winner: Option<Side>,
    duelStart: int,
    shotsFired: nat,      // shots of BOTH sides
    shotsHit: nat,        // hits by player 1 only
    lastShotTime: int)    // set by player 1's shots only; read by the opponent's gate

  const FreshDuel: DuelState := DuelState(Idle, Idle, [], 0, None, 0, 0, 0, 0)

  /** The whole game. `width` is the screen width in pixels, fixed for the
      life of the process. `countdown` and `countdownStart` are only
      meaningful once a duel has been started. */
  datatype Game = Game(
    width: nat,
    mode: Option<Mode>,
    phase: Phase,
    round: nat,
    arcadeWins: nat,
    score1: nat,
    score2: nat,
    duel: DuelState,
    countdown: int,
    countdownStart: int,
    journal: Journal)

  const SpriteWidth: int := 200
  const MaxRounds: nat := 10
  const CooldownMs: int := 300
  const PoseHoldMs: int := 200
  const CountdownMs: int := 3000
  const BestOf: nat := 5

  /** Right edge of player 1's sprite: `SCREEN_WIDTH * 0.2 + 200` pixels. */
  function P1Right(width: nat): int
  {
    2 * width + 10 * SpriteWidth
  }

  /** Left edge of player 2's sprite: `SCREEN_WIDTH * 0.8 - 200` pixels. */
  function P2Left(width: nat): int
  {
    8 * width - 10 * SpriteWidth
  }

  /** The right screen bound. */
  function RightEdge(width: nat): int
  {
    10 * width
  }

  /** Where the sprites sit: inside the screen from 250 pixels on, and
      with a gap between them exactly when the screen is wider than 666
      pixels. */
  lemma Layout(width: nat)
    ensures width >= 250 ==> 0 <= P1Right(width) <= RightEdge(width) && 0 <= P2Left(width) <= RightEdge(width)
    ensures P1Right(width) < P2Left(width) <==> width > 666
  {
  }

  /** `reset_game_state`: back to the menu with no mode, round 1, zero
      wins and scores, and a fresh duel; the journal is kept. */
  function ResetGame(g: Game): (r: Game)
    ensures r.phase == Menu && r.mode == None
    ensures r.round == 1 && r.arcadeWins == 0 && r.score1 == 0 && r.score2 == 0
    ensures r.duel == FreshDuel
    ensures r.journal == g.journal && r.width == g.width
  {
    g.(mode := None, phase := Menu, round := 1, arcadeWins := 0, score1 := 0, score2 := 0,
       duel := FreshDuel)
  }

  /** `start_duel`: a fresh duel whose countdown starts at `now`, with the
      click sound; mode, round and scores are kept. */
  function StartDuel(g: Game, now: int): (r: Game)
    ensures r.phase == Countdown && r.duel == FreshDuel
    ensures r.countdown == 3 && r.countdownStart == now
    ensures r == g.(phase := r.phase, duel := r.duel, countdown := r.countdown,
                    countdownStart := r.countdownStart, journal := r.journal)
    ensures r.journal == Emit(g.journal, Sound(ClickSfx))
  {
    g.(duel := FreshDuel, phase := Countdown, countdown := 3, countdownStart := now,
       journal := Emit(g.journal, Sound(ClickSfx)))
  }

  /** The game as constructed: the journal from start-up (see `Boot`) and
      the reset session. The countdown fields do not exist yet in the
      source; they are given placeholder values no phase reads. */
  function NewGame(width: nat, loaded: Option<Ledger>, today: int): (r: Game)
    ensures r.phase == Menu && r.mode == None && r.round == 1
    ensures r.arcadeWins == 0 && r.score1 == 0 && r.score2 == 0 && r.duel == FreshDuel
    ensures r.width == width
    ensures r.journal == Boot(loaded, today)
  {
    Game(width, None, Menu, 1, 0, 0, 0, FreshDuel, 3, 0, Boot(loaded, today))
  }
}

=== FILE: input.dfy ===
/** Input dispatch (`handle_events` and `handle_touch`), on abstract
    actions: which key or which screen region produced an action is
    presentation and is left out. Keys 1/2/3 and the three menu buttons
    pick a mode or the achievements screen; F/J and the two shoot buttons
    fire for player 1/2; Return, or a touch anywhere on the result screen,
    continues; Escape, or a touch anywhere on the achievements screen,
    goes back. */
module Input {
  import opened GameState
  import opened Session
  import opened Physics

  datatype Action =
    | Quit                 // the window's close event
    | PickArcade
    | PickPvp
    | PickAchievements
    | Fire(side: Side)
    | Continue
    | Back

  datatype Outcome = Outcome(game: Game, running: bool)

  /** One input event at time `now`. Every action is accepted only in the
      screen it belongs to and ignored elsewhere; the loop stops on the
      close event and on Escape in the menu. */
  function Handle(g: Game, a: Action, now: int): (r: Outcome)
    ensures !r.running <==> a == Quit || (a == Back && g.phase == Menu)
    ensures a.Fire? ==> r.game == (if g.phase == Duel then FireShot(g, a.side, now) else g)
    ensures a == Continue ==> r.game == (if g.phase == Result then RoundTransition(g, now) else g)
    ensures a == PickArcade ==> r.game == (if g.phase == Menu then StartMode(g, Arcade, now) else g)
    ensures a == PickPvp ==> r.game == (if g.phase == Menu then StartMode(g, Pvp, now) else g)
    ensures a == PickAchievements ==> r.game == (if g.phase == Menu then g.(phase := AchievementsView) else g)
    ensures a == Back ==> r.game == (if g.phase == AchievementsView then g.(phase := Menu) else g)
    ensures a == Quit ==> r.game == g
    ensures g.phase == Countdown ==> r.game == g
    ensures r.game.width == g.width
    ensures g.journal.ledger.unlocked <= r.game.journal.ledger.unlocked
  {
    if a == Quit then Outcome(g, false)
    else
      match g.phase
      case Menu =>
        (match a
         case PickArcade => Outcome(StartMode(g, Arcade, now), true)
         case PickPvp => Outcome(StartMode(g, Pvp, now), true)
         case PickAchievements => Outcome(g.(phase := AchievementsView), true)
         case Back => Outcome(g, false)
         case _ => Outcome(g, true))
      case Duel =>
        (match a
         case Fire(s) => Outcome(FireShot(g, s, now), true)
         case _ => Outcome(g, true))
      case Result =>
        if a == Continue then Outcome(RoundTransition(g, now), true) else Outcome(g, true)
      case AchievementsView =>
        if a == Back then Outcome(g.(phase := Menu), true) else Outcome(g, true)
      case Countdown => Outcome(g, true)
  }

  /** The events of one frame, in order; the first event that stops the
      loop discards the rest. */
  function HandleAll(g: Game, actions: seq<Action>, now: int): (r: Outcome)
    ensures r.game.width == g.width
    ensures g.journal.ledger.unlocked <= r.game.journal.ledger.unlocked
    ensures |actions| == 1 ==> r == Handle(g, actions[0], now)
    ensures Quit in actions ==> !r.running
    ensures !r.running ==> Quit in actions || Back in actions
    ensures Quit !in actions && Back !in actions ==> r.running
    decreases |actions|
  {
    if actions == [] then Outcome(g, true)
    else
      var o := Handle(g, actions[0], now);
      if !o.running then o else HandleAll(o.game, actions[1..], now)
  }

  /** Handling a frame's events is handling a first batch and then, if
      the loop still runs, the rest from the state it left: the events are
      handled one after another, in order. */
  lemma {:induction false} HandleAllAppend(g: Game, xs: seq<Action>, ys: seq<Action>, now: int)
    ensures HandleAll(g, xs + ys, now) ==
      (var o := HandleAll(g, xs, now); if o.running then HandleAll(o.game, ys, now) else o)
    decreases |xs|
  {
    if xs == [] {
      assert xs + ys == ys;
    } else {
      assert (xs + ys)[0] == xs[0];
      assert (xs + ys)[1..] == xs[1..] + ys;
      var o := Handle(g, xs[0], now);
      if o.running {
        HandleAllAppend(o.game, xs[1..], ys, now);
      }
    }
  }

  /** One pass of the main loop: the frame's events, then `update`. The
      update runs even when an event has just stopped the loop. */
  function Frame(g: Game, actions: seq<Action>, now: int, draw: int): (r: Outcome)
    ensures r.running == HandleAll(g, actions, now).running
    ensures r.game == Tick(HandleAll(g, actions, now).game, now, draw)
    ensures Quit in actions ==> !r.running
    ensures r.game.width == g.width
    ensures g.journal.ledger.unlocked <= r.game.journal.ledger.unlocked
  {
    var o := HandleAll(g, actions, now);
    Outcome(Tick(o.game, now, draw), o.running)
  }
}

=== FILE: physics.dfy ===
/** The duel itself: firing with the shared cooldown, moving and culling
    bullets, collision, the opponent's trigger and the per-frame `update`
    with its three branches (countdown, duel, result). Every function takes
    the frame's clock sample `now` (milliseconds) and, where the opponent
    may fire, its random draw, so each step is a deterministic transition. */
module Physics {
  import opened Basics
  import opened Achievements
  import opened GameState
  import opened Difficulty
  import opened Session

  // ---------------------------------------------------------------------
  // Bullets

  /** Each bullet moves by its own speed; nothing else about it changes. */
  function Advance(bs: seq<Bullet>): (r: seq<Bullet>)
    ensures |r| == |bs|
    ensures forall i :: 0 <= i < |r| ==>
      r[i].x == bs[i].x + bs[i].speed && r[i].speed == bs[i].speed && r[i].owner == bs[i].owner
    ensures forall s :: Owned(r, s) == Owned(bs, s)
  {
    if bs == [] then []
    else [bs[0].(x := bs[0].x + bs[0].speed)] + Advance(bs[1..])
  }

  /** Number of bullets in `bs` fired by side `s`. */
  function Owned(bs: seq<Bullet>, s: Side): nat
  {
    if bs == [] then 0 else (if bs[0].owner == s then 1 else 0) + Owned(bs[1..], s)
  }

  /** Inside the screen's horizontal bounds `[0, SCREEN_WIDTH]`. */
  predicate OnScreen(b: Bullet, width: nat)
  {
    0 <= b.x <= RightEdge(width)
  }

  /** Removal of the bullets that left the screen. The source removes them
      one by one with `list.remove`, which drops the first EQUAL element;
      every earlier element still present is on screen and so differs in
      position, hence the removed element is always the bullet itself and
      the result is this order-preserving filter. */
  function Cull(bs: seq<Bullet>, width: nat): (r: seq<Bullet>)
    ensures forall b :: b in r <==> b in bs && OnScreen(b, width)
    ensures |bs| == 1 ==> r == (if OnScreen(bs[0], width) then bs else [])
    ensures |r| <= |bs|
    ensures forall s :: Owned(r, s) <= Owned(bs, s)
  {
    if bs == [] then []
    else if OnScreen(bs[0], width) then [bs[0]] + Cull(bs[1..], width)
    else Cull(bs[1..], width)
  }

  /** Culling works piecewise and keeps the order: the kept bullets of
      `xs + ys` are the kept ones of `xs` followed by the kept ones of `ys`. */
  lemma {:induction false} CullAppend(xs: seq<Bullet>, ys: seq<Bullet>, width: nat)
    ensures Cull(xs + ys, width) == Cull(xs, width) + Cull(ys, width)
    decreases |xs|
  {
    if xs == [] {
      assert xs + ys == ys;
    } else {
      assert (xs + ys)[0] == xs[0];
      assert (xs + ys)[1..] == xs[1..] + ys;
      CullAppend(xs[1..], ys, width);
    }
  }

  // ---------------------------------------------------------------------
  // Collision

  /** A player-1 bullet past player 2's left edge. */
  predicate HitsP2(b: Bullet, width: nat)
  {
    b.owner == P1 && b.x > P2Left(width)
  }

  /** A player-2 bullet left of player 1's right edge. */
  predicate HitsP1(b: Bullet, width: nat)
  {
    b.owner == P2 && b.x < P1Right(width)
  }

  predicate Hits(b: Bullet, width: nat)
  {
    HitsP2(b, width) || HitsP1(b, width)
  }

  /** Number of bullets in `bs` that strike player 2. */
  function P2Struck(bs: seq<Bullet>, width: nat): nat
  {
    if bs == [] then 0 else (if HitsP2(bs[0], width) then 1 else 0) + P2Struck(bs[1..], width)
  }

  /** Number of bullets in `bs` that strike player 1. */
  function P1Struck(bs: seq<Bullet>, width: nat): nat
  {
    if bs == [] then 0 else (if HitsP1(bs[0], width) then 1 else 0) + P1Struck(bs[1..], width)
  }

  /** The winner the last striking bullet in `bs` names, if any bullet strikes. */
  function LastStriker(bs: seq<Bullet>, width: nat): Option<Side>
  {
    if bs == [] then None
    else
      var later := LastStriker(bs[1..], width);
      if later.Some? then later
      else if HitsP2(bs[0], width) then Some(P1)
      else if HitsP1(bs[0], width) then Some(P2)
      else None
  }

  lemma {:induction false} P2StruckBound(bs: seq<Bullet>, width: nat)
    ensures P2Struck(bs, width) <= Owned(bs, P1)
    ensures (exists i :: 0 <= i < |bs| && HitsP2(bs[i], width)) <==> P2Struck(bs, width) > 0
  {
    if bs != [] {
      P2StruckBound(bs[1..], width);
      if exists i :: 0 <= i < |bs| && HitsP2(bs[i], width) {
        var i :| 0 <= i < |bs| && HitsP2(bs[i], width);
        if i > 0 {
          assert HitsP2(bs[1..][i - 1], width);
        }
      }
      if exists i :: 0 <= i < |bs[1..]| && HitsP2(bs[1..][i], width) {
        var i :| 0 <= i < |bs[1..]| && HitsP2(bs[1..][i], width);
        assert HitsP2(bs[i + 1], width);
      }
    }
  }

  lemma {:induction false} P1StruckBound(bs: seq<Bullet>, width: nat)
    ensures P1Struck(bs, width) <= Owned(bs, P2)
    ensures (exists i :: 0 <= i < |bs| && HitsP1(bs[i], width)) <==> P1Struck(bs, width) > 0
  {
    if bs != [] {
      P1StruckBound(bs[1..], width);
      if exists i :: 0 <= i < |bs| && HitsP1(bs[i], width) {
        var i :| 0 <= i < |bs| && HitsP1(bs[i], width);
        if i > 0 {
          assert HitsP1(bs[1..][i - 1], width);
        }
      }
      if exists i :: 0 <= i < |bs[1..]| && HitsP1(bs[1..][i], width) {
        var i :| 0 <= i < |bs[1..]| && HitsP1(bs[1..][i], width);
        assert HitsP1(bs[i + 1], width);
      }
    }
  }

  /** The state changes a duel may see while bullets are checked: the
      poses, winner and hit counter, plus whatever `end_duel` books. */
  predicate CollisionFrame(g: Game, r: Game)
  {
    r == g.(phase := r.phase, arcadeWins := r.arcadeWins, score1 := r.score1, score2 := r.score2,
            journal := r.journal,
            duel := g.duel.(pose1 := r.duel.pose1, pose2 := r.duel.pose2, winner := r.duel.winner,
                            shotsHit := r.duel.shotsHit))
  }

  /** The collision check for one moved bullet (main.py:330-338). */
  function Strike(g: Game, b: Bullet, now: int): (r: Game)
    ensures CollisionFrame(g, r)
    ensures HitsP2(b, g.width) ==>
      r.phase == Result && r.duel.pose2 == Dead && r.duel.winner == Some(P1)
      && r.duel.shotsHit == g.duel.shotsHit + 1 && r.duel.pose1 == g.duel.pose1
    ensures HitsP1(b, g.width) ==>
      r.phase == Result && r.duel.pose1 == Dead && r.duel.winner == Some(P2)
      && r.duel.shotsHit == g.duel.shotsHit && r.duel.pose2 == g.duel.pose2
    ensures HitsP2(b, g.width) ==>
      r == EndDuel(g.(duel := g.duel.(pose2 := Dead, winner := Some(P1), shotsHit := g.duel.shotsHit + 1)), now)
    ensures HitsP1(b, g.width) ==> r == EndDuel(g.(duel := g.duel.(pose1 := Dead, winner := Some(P2))), now)
    ensures !Hits(b, g.width) ==> r == g
    ensures r.journal.ledger.dailyWins == g.journal.ledger.dailyWins + (if HitsP2(b, g.width) then 1 else 0)
    ensures r.arcadeWins == g.arcadeWins + (if HitsP2(b, g.width) && g.mode == Some(Arcade) then 1 else 0)
    ensures r.score1 == g.score1 + (if HitsP2(b, g.width) && g.mode == Some(Pvp) then 1 else 0)
    ensures r.score2 == g.score2 + (if HitsP1(b, g.width) && g.mode == Some(Pvp) then 1 else 0)
    ensures g.journal.ledger.unlocked <= r.journal.ledger.unlocked
    ensures g.journal.log <= r.journal.log
    ensures r.journal.ledger.dailyShots == g.journal.ledger.dailyShots
  {
    if HitsP2(b, g.width) then
      EndDuel(g.(duel := g.duel.(pose2 := Dead, winner := Some(P1), shotsHit := g.duel.shotsHit + 1)), now)
    else if HitsP1(b, g.width) then
      EndDuel(g.(duel := g.duel.(pose1 := Dead, winner := Some(P2))), now)
    else g
  }

  /** The collision pass over the moved bullets, in list order. As in the
      source it does not stop at the first hit: every hitting bullet runs
      `end_duel` again, booking one more win for its side, and the last one
      decides the winner. */
  function Resolve(g: Game, moved: seq<Bullet>, now: int): (r: Game)
    decreases |moved|
    ensures CollisionFrame(g, r)
    ensures r.duel.shotsHit == g.duel.shotsHit + P2Struck(moved, g.width)
    ensures P1Struck(moved, g.width) + P2Struck(moved, g.width) > 0 ==> r.phase == Result
    ensures P2Struck(moved, g.width) > 0 ==> r.duel.pose2 == Dead
    ensures P1Struck(moved, g.width) > 0 ==> r.duel.pose1 == Dead
    ensures P1Struck(moved, g.width) == 0 ==> r.duel.pose1 == g.duel.pose1
    ensures P2Struck(moved, g.width) == 0 ==> r.duel.pose2 == g.duel.pose2
    ensures P1Struck(moved, g.width) == 0 && P2Struck(moved, g.width) > 0 ==> r.duel.winner == Some(P1)
    ensures P2Struck(moved, g.width) == 0 && P1Struck(moved, g.width) > 0 ==> r.duel.winner == Some(P2)
    ensures P1Struck(moved, g.width) + P2Struck(moved, g.width) == 0 ==> r == g
    ensures r.duel.winner.Some? <==>
      g.duel.winner.Some? || P1Struck(moved, g.width) + P2Struck(moved, g.width) > 0
    ensures r.duel.winner == (if LastStriker(moved, g.width).Some? then LastStriker(moved, g.width) else g.duel.winner)
    ensures r.journal.ledger.dailyWins == g.journal.ledger.dailyWins + P2Struck(moved, g.width)
    ensures r.arcadeWins == g.arcadeWins + (if g.mode == Some(Arcade) then P2Struck(moved, g.width) else 0)
    ensures r.score1 == g.score1 + (if g.mode == Some(Pvp) then P2Struck(moved, g.width) else 0)
    ensures r.score2 == g.score2 + (if g.mode == Some(Pvp) then P1Struck(moved, g.width) else 0)
    ensures g.journal.ledger.unlocked <= r.journal.ledger.unlocked
    ensures g.journal.log <= r.journal.log
    ensures r.journal.ledger.dailyShots == g.journal.ledger.dailyShots
  {
    if moved == [] then g
    else
      var g1 := Strike(g, moved[0], now);
      Resolve(g1, moved[1..], now)
  }

  // ---------------------------------------------------------------------
  // Firing

  /** `fire_shot(side)` at time `now`. Within 300 ms of the last shot of
      EITHER side nothing happens; otherwise the shot is counted (in the
      duel and in the daily counter, which may unlock a daily flag), one
      bullet leaves the shooter's gun towards the other side, the shooter
      strikes the shoot pose and the cooldown restarts. Only player 1's
      shots move the clock the opponent's reaction gate reads. */
  function FireShot(g: Game, side: Side, now: int): (r: Game)
    ensures now - g.duel.lastShot < CooldownMs ==> r == g
    ensures now - g.duel.lastShot >= CooldownMs ==>
      && r.duel.lastShot == now
      && r.duel.shotsFired == g.duel.shotsFired + 1
      && r.journal.ledger.dailyShots == g.journal.ledger.dailyShots + 1
      && |r.duel.bullets| == |g.duel.bullets| + 1
      && r.duel.bullets[..|g.duel.bullets|] == g.duel.bullets
      && (var b := r.duel.bullets[|g.duel.bullets|];
         && b.owner == side
         && (side == P1 ==> b.speed > 0 && b.x == P1Right(g.width))
         && (side == P2 ==> b.speed < 0 && b.x == P2Left(g.width))
         && (b.speed == BulletSpeed(g.mode, g.round) as int || b.speed == -(BulletSpeed(g.mode, g.round) as int)))
      && (side == P1 ==> r.duel.pose1 == Shoot && r.duel.pose2 == g.duel.pose2 && r.duel.lastShotTime == now)
      && (side == P2 ==> r.duel.pose2 == Shoot && r.duel.pose1 == g.duel.pose1
                         && r.duel.lastShotTime == g.duel.lastShotTime)
      && |r.journal.log| > 0 && r.journal.log[|r.journal.log| - 1] == Sound(ShotSfx)
    ensures r == g.(duel := r.duel, journal := r.journal)
    ensures r.duel.winner == g.duel.winner && r.duel.shotsHit == g.duel.shotsHit
    ensures r.duel.duelStart == g.duel.duelStart
    ensures forall a :: a in r.journal.ledger.unlocked <==>
      a in g.journal.ledger.unlocked || (r != g && DailyThresholdMet(a, r.journal.ledger))
    ensures r.journal.ledger.dailyWins == g.journal.ledger.dailyWins
    ensures r.journal.ledger.lastPlay == g.journal.ledger.lastPlay
    ensures g.journal.log <= r.journal.log
  {
    if now - g.duel.lastShot < CooldownMs then g
    else
      var j := g.journal;
      var counted := CheckDaily(j.(ledger := j.ledger.(dailyShots := j.ledger.dailyShots + 1)));
      var speed: int := BulletSpeed(g.mode, g.round);
      var d := g.duel.(lastShot := now, shotsFired := g.duel.shotsFired + 1);
      var d' :=
        if side == P1 then
          d.(bullets := d.bullets + [Bullet(P1Right(g.width), speed, P1)], pose1 := Shoot, lastShotTime := now)
        else
          d.(bullets := d.bullets + [Bullet(P2Left(g.width), -speed, P2)], pose2 := Shoot);
      g.(duel := d', journal := Emit(counted, Sound(ShotSfx)))
  }

  /** The opponent's trigger in arcade mode (main.py:345-349): more than
      100 ms into the duel, more than the reaction time since player 1's
      last shot, and a successful draw. The reaction clock is the one only
      player 1's shots move, so the opponent's own shots never delay it.
      Whatever the round, the trigger needs more than 100 ms since player
      1's last shot and a draw below 300 (a 30% chance); it is sure to be
      allowed after 1000 ms with a draw below 30 (3%). */
  function OpponentFires(g: Game, now: int, draw: int): (r: bool)
    ensures r ==> g.mode == Some(Arcade) && now - g.duel.duelStart > 100
                  && now - g.duel.lastShotTime > 100 && draw < 300
    ensures (g.mode == Some(Arcade) && now - g.duel.duelStart > 100
             && now - g.duel.lastShotTime > 1000 && draw < 30) ==> r
  {
    && g.mode == Some(Arcade)
    && now - g.duel.duelStart > 100
    && now - g.duel.lastShotTime > ReactionMs(g.mode, g.round)
    && DrawFires(draw, g.mode, g.round)
  }

  /** The animation reset: more than 200 ms after the last shot every
      living combatant is idle again; the dead stay dead. */
  function SettlePoses(g: Game, now: int): (r: Game)
    ensures r == g.(duel := g.duel.(pose1 := r.duel.pose1, pose2 := r.duel.pose2))
    ensures now - g.duel.lastShot > PoseHoldMs ==>
      (r.duel.pose1 == Dead <==> g.duel.pose1 == Dead) && (r.duel.pose1 != Dead ==> r.duel.pose1 == Idle)
      && (r.duel.pose2 == Dead <==> g.duel.pose2 == Dead) && (r.duel.pose2 != Dead ==> r.duel.pose2 == Idle)
    ensures now - g.duel.lastShot <= PoseHoldMs ==> r == g
  {
    if now - g.duel.lastShot > PoseHoldMs then
      var p1 := if g.duel.pose1 != Dead then Idle else g.duel.pose1;
      var p2 := if g.duel.pose2 != Dead then Idle else g.duel.pose2;
      g.(duel := g.duel.(pose1 := p1, pose2 := p2))
    else g
  }

  /** The end of the duel branch of `update`: the opponent's trigger, then
      the animation reset. A shot the trigger allows still goes through the
      shared cooldown; it appends player 2's bullet at player 2's left
      edge, counts in both shot counters and leaves the shoot pose up. */
  function OpponentTurn(g: Game, now: int, draw: int): (r: Game)
    ensures var fired := OpponentFires(g, now, draw) && now - g.duel.lastShot >= CooldownMs;
      && r.duel.shotsFired == g.duel.shotsFired + (if fired then 1 else 0)
      && (fired ==>
            && r.duel.bullets == g.duel.bullets + [Bullet(P2Left(g.width), -(BulletSpeed(g.mode, g.round) as int), P2)]
            && r.duel.pose2 == Shoot && r.duel.lastShot == now
            && r.journal.ledger.dailyShots == g.journal.ledger.dailyShots + 1
            && r.duel.pose1 == g.duel.pose1
            && (forall a :: a in r.journal.ledger.unlocked <==>
                  a in g.journal.ledger.unlocked || DailyThresholdMet(a, r.journal.ledger)))
      && (!fired ==> r == SettlePoses(g, now))
    ensures r == g.(duel := r.duel, journal := r.journal)
    ensures r.duel == g.duel.(bullets := r.duel.bullets, pose1 := r.duel.pose1, pose2 := r.duel.pose2,
                              lastShot := r.duel.lastShot, shotsFired := r.duel.shotsFired)
    ensures r.journal.ledger.dailyWins == g.journal.ledger.dailyWins
    ensures g.duel.pose1 == Dead <==> r.duel.pose1 == Dead
    ensures g.duel.pose2 == Dead ==> r.duel.pose2 == Dead || r.duel.shotsFired == g.duel.shotsFired + 1
    ensures r.duel.pose2 == Dead ==> g.duel.pose2 == Dead
    ensures now - r.duel.lastShot > PoseHoldMs ==> r.duel.pose1 in {Idle, Dead} && r.duel.pose2 in {Idle, Dead}
    ensures g.journal.ledger.unlocked <= r.journal.ledger.unlocked
    ensures forall a :: a in r.journal.ledger.unlocked ==>
      a in g.journal.ledger.unlocked || DailyThresholdMet(a, r.journal.ledger)
    ensures g.journal.log <= r.journal.log
  {
    var g1 := if OpponentFires(g, now, draw) then FireShot(g, P2, now) else g;
    SettlePoses(g1, now)
  }

  // ---------------------------------------------------------------------
  // The frame update

  /** The countdown branch of `update`: the displayed count is the number
      of whole seconds still to go (0 to 3 on a monotonic clock) and the
      duel begins exactly when 3000 ms have elapsed. */
  function CountdownTick(g: Game, now: int): (r: Game)
    requires g.phase == Countdown
    ensures var elapsed := now - g.countdownStart;
      && r.phase == (if elapsed >= CountdownMs then Duel else Countdown)
      && (elapsed >= 0 ==> 0 <= r.countdown <= 3)
      && (0 <= elapsed < CountdownMs ==>
            (r.countdown - 1) * 1000 < CountdownMs - elapsed <= r.countdown * 1000)
      && (elapsed >= CountdownMs ==> r.countdown == 0 && r.duel == g.duel.(duelStart := now))
      && (elapsed < CountdownMs ==> r == g.(countdown := r.countdown))
      && r.journal.log == g.journal.log + (if elapsed >= CountdownMs then [Sound(ClickSfx)] else [])
    ensures r == g.(phase := r.phase, countdown := r.countdown, duel := r.duel, journal := r.journal)
    ensures r.journal.ledger == g.journal.ledger
  {
    var elapsed := now - g.countdownStart;
    var g1 := g.(countdown := Max(0, 3 - WholeSeconds(elapsed)));
    if elapsed >= CountdownMs then
      g1.(phase := Duel, duel := g1.duel.(duelStart := now), journal := Emit(g1.journal, Sound(ClickSfx)))
    else g1
  }

  /** The first half of the duel branch of `update` (main.py:326-342):
      move and check every bullet, then drop the ones off screen. Stated
      in the numbers of moved bullets that strike each player
      (`P1StruckBound` and `P2StruckBound` relate them to single bullets). */
  function Collide(g: Game, now: int): (r: Game)
    ensures var moved := Advance(g.duel.bullets);
      var hitsOn1 := P1Struck(moved, g.width);
      var hitsOn2 := P2Struck(moved, g.width);
      && CollisionFrame(g.(duel := g.duel.(bullets := r.duel.bullets)), r)
      && r.duel.bullets == Cull(moved, g.width)
      && r.phase == (if hitsOn1 + hitsOn2 > 0 then Result else g.phase)
      && r.duel.shotsHit == g.duel.shotsHit + hitsOn2
      && (hitsOn1 > 0 ==> r.duel.pose1 == Dead)
      && (hitsOn2 > 0 ==> r.duel.pose2 == Dead)
      && (hitsOn1 == 0 && hitsOn2 > 0 ==> r.duel.winner == Some(P1))
      && (hitsOn2 == 0 && hitsOn1 > 0 ==> r.duel.winner == Some(P2))
      && r.duel.winner == (if LastStriker(moved, g.width).Some? then LastStriker(moved, g.width) else g.duel.winner)
      && (r.duel.winner.Some? <==> g.duel.winner.Some? || hitsOn1 + hitsOn2 > 0)
      && (hitsOn1 + hitsOn2 == 0 ==> r == g.(duel := g.duel.(bullets := Cull(moved, g.width))))
      && r.journal.ledger.dailyWins == g.journal.ledger.dailyWins + hitsOn2
      && r.arcadeWins == g.arcadeWins + (if g.mode == Some(Arcade) then hitsOn2 else 0)
      && r.score1 == g.score1 + (if g.mode == Some(Pvp) then hitsOn2 else 0)
      && r.score2 == g.score2 + (if g.mode == Some(Pvp) then hitsOn1 else 0)
    ensures r.journal.ledger.dailyShots == g.journal.ledger.dailyShots
    ensures g.journal.ledger.unlocked <= r.journal.ledger.unlocked
    ensures g.journal.log <= r.journal.log
  {
    var moved := Advance(g.duel.bullets);
    var g1 := Resolve(g, moved, now);
    g1.(duel := g1.duel.(bullets := Cull(moved, g.width)))
  }

  /** The duel branch of `update`: the collision half, then the
      opponent's trigger (even when a bullet has just resolved the duel)
      and the animation reset. Whatever the collision half decided about
      the result, the winner and the bookings stands; the opponent only
      adds its shot. */
  function DuelTick(g: Game, now: int, draw: int): (r: Game)
    requires g.phase == Duel
    ensures var c := Collide(g, now);
      var fired := OpponentFires(g, now, draw) && now - g.duel.lastShot >= CooldownMs;
      && r.phase == c.phase && r.duel.winner == c.duel.winner && r.duel.shotsHit == c.duel.shotsHit
      && r.arcadeWins == c.arcadeWins && r.score1 == c.score1 && r.score2 == c.score2
      && r.journal.ledger.dailyWins == c.journal.ledger.dailyWins
      && r.duel.shotsFired == g.duel.shotsFired + (if fired then 1 else 0)
      && (fired ==>
            && r.duel.bullets == c.duel.bullets + [Bullet(P2Left(g.width), -(BulletSpeed(g.mode, g.round) as int), P2)]
            && r.duel.pose2 == Shoot && r.duel.lastShot == now
            && r.journal.ledger.dailyShots == g.journal.ledger.dailyShots + 1
            && r.duel.pose1 == c.duel.pose1
            && (forall a :: a in r.journal.ledger.unlocked <==>
                  a in c.journal.ledger.unlocked || DailyThresholdMet(a, r.journal.ledger)))
      && (!fired ==> r == SettlePoses(c, now) && r.duel.bullets == c.duel.bullets)
      && r.duel.lastShot == (if fired then now else g.duel.lastShot)
      && (c.duel.pose1 == Dead ==> r.duel.pose1 == Dead)
      && (c.duel.pose2 == Dead ==> r.duel.pose2 == Dead || fired)
    ensures g.mode != Some(Arcade) ==> r.duel.shotsFired == g.duel.shotsFired
    ensures now - r.duel.lastShot > PoseHoldMs ==> r.duel.pose1 in {Idle, Dead} && r.duel.pose2 in {Idle, Dead}
    ensures r.duel.lastShotTime == g.duel.lastShotTime
    ensures r.duel.duelStart == g.duel.duelStart
    ensures r == g.(phase := r.phase, arcadeWins := r.arcadeWins, score1 := r.score1, score2 := r.score2,
                    duel := r.duel, journal := r.journal)
    ensures r.width == g.width && r.mode == g.mode && r.round == g.round
    ensures g.journal.ledger.unlocked <= r.journal.ledger.unlocked
    ensures g.journal.log <= r.journal.log
  {
    OpponentTurn(Collide(g, now), now, draw)
  }

  /** The result branch of `update`: bullets in flight keep moving and
      leave the screen, but nothing collides and nothing else changes. */
  function ResultTick(g: Game): (r: Game)
    ensures r == g.(duel := g.duel.(bullets := r.duel.bullets))
    ensures forall b :: b in r.duel.bullets <==> b in Advance(g.duel.bullets) && OnScreen(b, g.width)
  {
    g.(duel := g.duel.(bullets := Cull(Advance(g.duel.bullets), g.width)))
  }

  /** `update`: one frame of simulation at time `now`, with `draw` the
      opponent's random draw for this frame. */
  function Tick(g: Game, now: int, draw: int): (r: Game)
    ensures g.phase in {Menu, AchievementsView} ==> r == g
    ensures g.phase == Countdown ==> r == CountdownTick(g, now)
    ensures g.phase == Duel ==> r == DuelTick(g, now, draw)
    ensures g.phase == Result ==> r == ResultTick(g)
    ensures r.width == g.width && r.mode == g.mode && r.round == g.round
    ensures g.journal.ledger.unlocked <= r.journal.ledger.unlocked
    ensures g.journal.log <= r.journal.log
  {
    match g.phase
    case Countdown => CountdownTick(g, now)
    case Duel => DuelTick(g, now, draw)
    case Result => ResultTick(g)
    case _ => g
  }
}

=== FILE: properties.dfy ===
/** Properties that relate several steps: the state invariant every frame
    keeps, the shared cooldown, the `no_miss` bookkeeping, and scenarios of
    the match, including behaviours of the code as written that a reader
    might not expect. */
module Properties {
  import opened Basics
  import opened Achievements
  import opened GameState
  import opened Difficulty
  import opened Session
  import opened Physics
  import opened Input

  /** A bullet flies away from its shooter: right for player 1, left for player 2. */
  predicate Heading(b: Bullet)
  {
    (b.owner == P1 ==> b.speed > 0) && (b.owner == P2 ==> b.speed < 0)
  }

  /** The invariant of a running game. Rounds start at one; a duel on
      screen belongs to a mode; nothing has been fired during a countdown;
      while the duel is live nobody is dead and there is no winner; a
      result always has a winner; bullets head towards the other side;
      and player 1's hits, together with the player-1 bullets still live,
      never exceed the shots fired (so the accuracy shown is at most 100%). */
  predicate Valid(g: Game)
  {
    && g.round >= 1
    && (g.phase in {Countdown, Duel, Result} ==> g.mode.Some?)
    && (g.phase == Countdown ==> g.duel == FreshDuel)
    && (g.phase == Duel ==> g.duel.winner == None && g.duel.pose1 != Dead && g.duel.pose2 != Dead)
    && (g.phase == Result ==> g.duel.winner.Some?)
    && (forall b :: b in g.duel.bullets ==> Heading(b))
    && g.duel.shotsHit + (if g.phase == Duel then Owned(g.duel.bullets, P1) else 0) <= g.duel.shotsFired
  }

  lemma NewGameValid(width: nat, loaded: Option<Ledger>, today: int)
    ensures Valid(NewGame(width, loaded, today))
  {
  }

  lemma {:induction false} OwnedAppend(bs: seq<Bullet>, b: Bullet, s: Side)
    ensures Owned(bs + [b], s) == Owned(bs, s) + (if b.owner == s then 1 else 0)
  {
    if bs != [] {
      assert (bs + [b])[1..] == bs[1..] + [b];
      OwnedAppend(bs[1..], b, s);
    } else {
      assert [b][1..] == [];
    }
  }

  lemma AdvanceHeading(bs: seq<Bullet>)
    requires forall b :: b in bs ==> Heading(b)
    ensures forall b :: b in Advance(bs) ==> Heading(b)
  {
    var moved := Advance(bs);
    forall b | b in moved ensures Heading(b) {
      var i :| 0 <= i < |moved| && moved[i] == b;
      assert Heading(bs[i]);
    }
  }

  lemma FireShotValid(g: Game, s: Side, now: int)
    requires Valid(g) && g.phase == Duel
    ensures Valid(FireShot(g, s, now))
  {
    var r := FireShot(g, s, now);
    if r != g {
      var n := |g.duel.bullets|;
      assert r.duel.bullets == g.duel.bullets + [r.duel.bullets[n]];
      OwnedAppend(g.duel.bullets, r.duel.bullets[n], P1);
    }
  }

  /** The collision half of a duel frame keeps the invariant: the duel
      either goes on with fewer or as many player-1 bullets in flight, or
      it has a result with a winner. */
  lemma CollideValid(g: Game, now: int)
    requires Valid(g) && g.phase == Duel
    ensures Valid(Collide(g, now))
  {
    var moved := Advance(g.duel.bullets);
    var c := Collide(g, now);
    AdvanceHeading(g.duel.bullets);
    assert forall b :: b in c.duel.bullets ==> Heading(b);
    P2StruckBound(moved, g.width);
    if P1Struck(moved, g.width) + P2Struck(moved, g.width) == 0 {
      assert Owned(c.duel.bullets, P1) <= Owned(g.duel.bullets, P1);
    }
  }

  /** The opponent's half of a duel frame keeps the invariant. */
  lemma OpponentTurnValid(c: Game, now: int, draw: int)
    requires Valid(c) && c.phase in {Duel, Result}
    ensures Valid(OpponentTurn(c, now, draw))
  {
    var r := OpponentTurn(c, now, draw);
    if r.duel.shotsFired == c.duel.shotsFired + 1 {
      var n := |c.duel.bullets|;
      OwnedAppend(c.duel.bullets, r.duel.bullets[n], P1);
    }
  }

  lemma DuelTickValid(g: Game, now: int, draw: int)
    requires Valid(g) && g.phase == Duel
    ensures Valid(DuelTick(g, now, draw))
  {
    CollideValid(g, now);
    OpponentTurnValid(Collide(g, now), now, draw);
  }

  /** Every frame update keeps the invariant. */
  lemma TickValid(g: Game, now: int, draw: int)
    requires Valid(g)
    ensures Valid(Tick(g, now, draw))
  {
    if g.phase == Duel {
      DuelTickValid(g, now, draw);
    } else if g.phase == Result {
      var r := ResultTick(g);
      forall b | b in r.duel.bullets ensures Heading(b) {
        AdvanceHeading(g.duel.bullets);
      }
    }
  }

  /** Every input event keeps the invariant. */
  lemma HandleValid(g: Game, a: Action, now: int)
    requires Valid(g)
    ensures Valid(Handle(g, a, now).game)
  {
    if a.Fire? && g.phase == Duel {
      FireShotValid(g, a.side, now);
    }
  }

  lemma {:induction false} HandleAllValid(g: Game, actions: seq<Action>, now: int)
    requires Valid(g)
    ensures Valid(HandleAll(g, actions, now).game)
    decreases |actions|
  {
    if actions != [] {
      HandleValid(g, actions[0], now);
      HandleAllValid(Handle(g, actions[0], now).game, actions[1..], now);
    }
  }

  /** A whole pass of the main loop keeps the invariant. */
  lemma FrameValid(g: Game, actions: seq<Action>, now: int, draw: int)
    requires Valid(g)
    ensures Valid(Frame(g, actions, now, draw).game)
  {
    HandleAllValid(g, actions, now);
    TickValid(HandleAll(g, actions, now).game, now, draw);
  }

  /** The cooldown is shared: once a shot of either side is accepted, no
      shot of either side is accepted in the next 300 ms. */
  lemma SharedCooldown(g: Game, s1: Side, s2: Side, t1: int, t2: int)
    requires g.phase == Duel
    requires t1 <= t2 < t1 + CooldownMs
    ensures var first := Handle(g, Fire(s1), t1).game;
      first != g ==> Handle(first, Fire(s2), t2).game == first
  {
  }

  /** The cooldown window holds across a whole batch of events: while
      less than 300 ms have passed since the last accepted shot, no
      sequence of events changes a live duel. */
  lemma {:induction false} CooldownHoldsEvents(g: Game, actions: seq<Action>, now: int)
    requires g.phase == Duel && now - g.duel.lastShot < CooldownMs
    ensures HandleAll(g, actions, now).game == g
    decreases |actions|
  {
    if actions != [] {
      var o := Handle(g, actions[0], now);
      if o.running {
        CooldownHoldsEvents(o.game, actions[1..], now);
      }
    }
  }

  /** A whole pass of the main loop inside the cooldown window: neither
      player's events nor the opponent's trigger in `update` get a shot
      through. The cooldown clock and the shot count stay, and the only
      bullets are the old ones, moved and culled. */
  lemma CooldownHoldsFrame(g: Game, actions: seq<Action>, now: int, draw: int)
    requires g.phase == Duel && now - g.duel.lastShot < CooldownMs
    ensures var r := Frame(g, actions, now, draw).game;
      && r.duel.lastShot == g.duel.lastShot
      && r.duel.shotsFired == g.duel.shotsFired
      && r.duel.bullets == Cull(Advance(g.duel.bullets), g.width)
  {
    CooldownHoldsEvents(g, actions, now);
  }

  /** As written, the opponent's reaction gate reads the clock only player
      1's shots move: a shot of player 2's own leaves its trigger exactly
      as ready as before. */
  lemma OpponentGateIgnoresOwnShots(g: Game, t: int, now: int, draw: int)
    ensures OpponentFires(FireShot(g, P2, t), now, draw) == OpponentFires(g, now, draw)
  {
  }

  // ---------------------------------------------------------------------
  // Scenarios

  /** Arcade round one: player 1's only bullet reaches the opponent. The
      duel resolves for player 1, `first_blood` unlocks, and continuing
      starts round two. */
  lemma FirstBloodScenario(g: Game, b: Bullet, now: int, draw: int, later: int)
    requires g.phase == Duel && g.mode == Some(Arcade) && g.round == 1 && g.arcadeWins == 0
    requires g.duel.bullets == [b] && b.owner == P1 && b.x + b.speed > P2Left(g.width)
    ensures var r := Tick(g, now, draw);
      && r.phase == Result && r.duel.winner == Some(P1) && r.arcadeWins == 1
      && FirstBlood in r.journal.ledger.unlocked
      && RoundTransition(r, later).round == 2 && RoundTransition(r, later).phase == Countdown
  {
    var moved := Advance(g.duel.bullets);
    assert moved[0].x == b.x + b.speed && moved == [moved[0]];
    assert HitsP2(moved[0], g.width);
    var won := g.(duel := g.duel.(pose2 := Dead, winner := Some(P1), shotsHit := g.duel.shotsHit + 1));
    var g1 := Resolve(g, moved, now);
    assert g1 == Resolve(Strike(g, moved[0], now), [], now) by {
      assert moved[1..] == [];
    }
    assert g1 == EndDuel(won, now);
    assert ArcadeEarned(FirstBlood, won.(arcadeWins := 1), now);
    assert FirstBlood in g1.journal.ledger.unlocked && g1.arcadeWins == 1;
  }

  /** Versus mode: player 1 takes the fifth point against three. The
      match is won, `pvp_winner` unlocks, and continuing returns to the menu. */
  lemma PvpMatchPointScenario(g: Game, now: int, later: int)
    requires g.mode == Some(Pvp) && P1Won(g) && g.score1 == 4 && g.score2 == 3
    ensures var r := EndDuel(g, now);
      && r.score1 == 5 && r.score2 == 3
      && PvpWinner in r.journal.ledger.unlocked
      && RoundTransition(r, later).phase == Menu
  {
  }

  /** As written, `pvp_winner` rewards only player 1: player 2 reaching
      five ends the match without unlocking it. */
  lemma PvpWinnerOnlyForPlayerOne(g: Game, now: int, later: int)
    requires g.mode == Some(Pvp) && g.duel.winner == Some(P2) && g.score2 == 4 && g.score1 <= 4
    requires PvpWinner !in g.journal.ledger.unlocked
    ensures var r := EndDuel(g, now);
      && r.score2 == 5 && PvpWinner !in r.journal.ledger.unlocked
      && RoundTransition(r, later).phase == Menu
  {
  }

  /** An arcade win with fewer hits than shots fired leaves `no_miss`
      locked. Since `shots_fired` counts both sides, this is the case once
      player 2 has fired (see `GapWithholdsNoMiss`). */
  lemma NoMissCountsOpponentShots(g: Game, now: int)
    requires g.mode == Some(Arcade) && P1Won(g)
    requires g.duel.shotsHit < g.duel.shotsFired
    requires NoMiss !in g.journal.ledger.unlocked
    ensures NoMiss !in EndDuel(g, now).journal.ledger.unlocked
  {
  }

  /** Player 1's hits and live bullets fall strictly short of the shots
      fired: some shot already counted can never become a player-1 hit. */
  predicate ShotGap(g: Game)
  {
    g.duel.shotsHit + Owned(g.duel.bullets, P1) < g.duel.shotsFired
  }

  /** An accepted player-2 shot, the opponent's or a second player's,
      opens the gap: it counts in `shots_fired` but can never count in
      `shots_hit`. */
  lemma PlayerTwoShotOpensGap(g: Game, t: int)
    requires Valid(g) && g.phase == Duel
    ensures var r := FireShot(g, P2, t); r != g ==> ShotGap(r)
  {
    var r := FireShot(g, P2, t);
    if r != g {
      var n := |g.duel.bullets|;
      assert r.duel.bullets == g.duel.bullets + [r.duel.bullets[n]];
      OwnedAppend(g.duel.bullets, r.duel.bullets[n], P1);
    }
  }

  /** Input during the duel keeps the gap open. */
  lemma HandleKeepsGap(g: Game, a: Action, now: int)
    requires g.phase == Duel && ShotGap(g)
    ensures var r := Handle(g, a, now).game; r.phase == Duel && ShotGap(r)
  {
    var r := Handle(g, a, now).game;
    if a.Fire? && r != g {
      var n := |g.duel.bullets|;
      assert r.duel.bullets == g.duel.bullets + [r.duel.bullets[n]];
      OwnedAppend(g.duel.bullets, r.duel.bullets[n], P1);
    }
  }

  /** A frame of the live duel keeps the gap open, and opens it when the
      opponent's trigger fires and the duel goes on. */
  lemma DuelTickKeepsGap(g: Game, now: int, draw: int)
    requires Valid(g) && g.phase == Duel
    ensures var r := DuelTick(g, now, draw);
      r.phase == Duel && (ShotGap(g) || r.duel.shotsFired == g.duel.shotsFired + 1) ==> ShotGap(r)
  {
    var r := DuelTick(g, now, draw);
    var moved := Advance(g.duel.bullets);
    if r.phase == Duel {
      assert Resolve(g, moved, now) == g;
      var kept := Cull(moved, g.width);
      var g2 := g.(duel := g.duel.(bullets := kept));
      assert r == OpponentTurn(g2, now, draw);
      if r.duel.shotsFired == g.duel.shotsFired + 1 {
        OwnedAppend(kept, r.duel.bullets[|kept|], P1);
      }
    }
  }

  /** One `end_duel` with fewer hits than shots never grants `no_miss`. */
  lemma EndDuelWithholdsNoMiss(g: Game, now: int)
    requires g.duel.shotsHit < g.duel.shotsFired
    requires NoMiss !in g.journal.ledger.unlocked
    ensures NoMiss !in EndDuel(g, now).journal.ledger.unlocked
  {
    var r := EndDuel(g, now);
    if P1Won(g) && g.mode == Some(Arcade) {
      assert !ArcadeEarned(NoMiss, g.(arcadeWins := r.arcadeWins), now);
    }
  }

  lemma {:induction false} ResolveWithholdsNoMiss(g: Game, moved: seq<Bullet>, now: int)
    requires g.duel.shotsHit + P2Struck(moved, g.width) < g.duel.shotsFired
    requires NoMiss !in g.journal.ledger.unlocked
    ensures NoMiss !in Resolve(g, moved, now).journal.ledger.unlocked
    decreases |moved|
  {
    if moved != [] {
      var b := moved[0];
      if HitsP2(b, g.width) {
        EndDuelWithholdsNoMiss(g.(duel := g.duel.(pose2 := Dead, winner := Some(P1), shotsHit := g.duel.shotsHit + 1)), now);
      } else if HitsP1(b, g.width) {
        EndDuelWithholdsNoMiss(g.(duel := g.duel.(pose1 := Dead, winner := Some(P2))), now);
      }
      ResolveWithholdsNoMiss(Strike(g, b, now), moved[1..], now);
    }
  }

  /** While the gap is open, the frame that resolves the duel cannot grant
      `no_miss`, whoever wins. */
  lemma DuelTickWithholdsNoMiss(g: Game, now: int, draw: int)
    requires g.phase == Duel && ShotGap(g)
    requires NoMiss !in g.journal.ledger.unlocked
    ensures NoMiss !in DuelTick(g, now, draw).journal.ledger.unlocked
  {
    var moved := Advance(g.duel.bullets);
    P2StruckBound(moved, g.width);
    ResolveWithholdsNoMiss(g, moved, now);
  }

  lemma {:induction false} HandleAllKeepsGap(g: Game, actions: seq<Action>, now: int)
    requires g.phase == Duel && ShotGap(g)
    ensures var r := HandleAll(g, actions, now).game; r.phase == Duel && ShotGap(r)
    decreases |actions|
  {
    if actions != [] {
      HandleKeepsGap(g, actions[0], now);
      HandleAllKeepsGap(Handle(g, actions[0], now).game, actions[1..], now);
    }
  }

  /** What the main loop receives in one pass: the frame's events, the
      clock sample and the opponent's draw. */
  datatype FrameInput = FrameInput(actions: seq<Action>, now: int, draw: int)

  /** Passes of the main loop while the duel is live; stops once the duel
      has left the `duel` state (or the inputs run out). Unlike the source
      it does not stop when a pass ends the loop; a run of the source is
      this function on a prefix of the frames, so a lemma about every
      frame sequence covers the source's runs too. */
  function RunDuel(g: Game, frames: seq<FrameInput>): Game
    decreases |frames|
  {
    if frames == [] || g.phase != Duel then g
    else RunDuel(Frame(g, frames[0].actions, frames[0].now, frames[0].draw).game, frames[1..])
  }

  /** The shared cooldown over several frames: as long as every frame's
      clock sample lies within 300 ms of the last accepted shot, the duel
      accepts no shot of either side, whatever the events and draws. */
  lemma {:induction false} CooldownWindow(g: Game, frames: seq<FrameInput>)
    requires g.phase == Duel
    requires forall f :: f in frames ==> f.now - g.duel.lastShot < CooldownMs
    ensures RunDuel(g, frames).duel.lastShot == g.duel.lastShot
    ensures RunDuel(g, frames).duel.shotsFired == g.duel.shotsFired
    decreases |frames|
  {
    if frames != [] {
      var f := frames[0];
      CooldownHoldsFrame(g, f.actions, f.now, f.draw);
      var r := Frame(g, f.actions, f.now, f.draw).game;
      if r.phase == Duel {
        CooldownWindow(r, frames[1..]);
      }
    }
  }

  /** Once a shot that can never hit has been counted, the duel ends, by
      whatever sequence of events and frames, without granting `no_miss`:
      `shots_fired` counts both sides, `shots_hit` only player 1's hits. */
  lemma {:induction false} GapWithholdsNoMiss(g: Game, frames: seq<FrameInput>)
    requires Valid(g) && g.phase == Duel && ShotGap(g)
    requires NoMiss !in g.journal.ledger.unlocked
    ensures NoMiss !in RunDuel(g, frames).journal.ledger.unlocked
    decreases |frames|
  {
    if frames != [] {
      var f := frames[0];
      var h := HandleAll(g, f.actions, f.now).game;
      HandleAllKeepsGap(g, f.actions, f.now);
      HandleAllValid(g, f.actions, f.now);
      assert NoMiss !in h.journal.ledger.unlocked by {
        NoMissOnlyAtResolution(g, f.actions, f.now);
      }
      var r := DuelTick(h, f.now, f.draw);
      DuelTickWithholdsNoMiss(h, f.now, f.draw);
      DuelTickKeepsGap(h, f.now, f.draw);
      DuelTickValid(h, f.now, f.draw);
      assert Frame(g, f.actions, f.now, f.draw).game == r;
      if r.phase == Duel {
        GapWithholdsNoMiss(r, frames[1..]);
      }
    }
  }

  /** Input during the duel only fires shots, which never grant `no_miss`. */
  lemma {:induction false} NoMissOnlyAtResolution(g: Game, actions: seq<Action>, now: int)
    requires g.phase == Duel
    requires NoMiss !in g.journal.ledger.unlocked
    ensures NoMiss !in HandleAll(g, actions, now).game.journal.ledger.unlocked
    decreases |actions|
  {
    if actions != [] {
      var o := Handle(g, actions[0], now);
      assert o.game.phase == Duel && NoMiss !in o.game.journal.ledger.unlocked;
      if o.running {
        NoMissOnlyAtResolution(o.game, actions[1..], now);
      }
    }
  }

  /** As written, the collision pass does not stop at the first hit, so
      one pass can resolve the duel twice. A run reaches this only in
      arcade: the shared cooldown lets through at most one shot per frame
      and all bullets of a duel move at the same speed, so the two bullets
      must make their first move in the same pass. That happens when the
      opponent fires at the end of one frame and player 1, at least 300 ms
      later, in the events of the next, on a screen narrow enough for a
      bullet to cross the gap in one move. Both players are then dead, the
      loss and then the win are booked, and player 1, whose bullet comes
      later in the list, is recorded as the winner. */
  lemma DoubleResolutionInOneTick(g: Game, now: int, draw: int)
    requires g.phase == Duel && g.mode == Some(Arcade)
    requires g.duel.bullets == [Bullet(P2Left(g.width), -(BulletSpeed(g.mode, g.round) as int), P2)]
    requires now - g.duel.lastShot >= CooldownMs
    requires P2Left(g.width) - P1Right(g.width) < BulletSpeed(g.mode, g.round) as int
    ensures var r := Frame(g, [Fire(P1)], now, draw).game;
      && r.phase == Result
      && r.duel.winner == Some(P1)
      && r.duel.pose1 == Dead && r.duel.pose2 == Dead
      && r.duel.shotsHit == g.duel.shotsHit + 1
      && r.arcadeWins == g.arcadeWins + 1
      && r.journal.ledger.dailyWins == g.journal.ledger.dailyWins + 1
  {
    var h := FireShot(g, P1, now);
    assert HandleAll(g, [Fire(P1)], now).game == h;
    var s := BulletSpeed(g.mode, g.round) as int;
    assert h.duel.bullets == [Bullet(P2Left(g.width), -s, P2), Bullet(P1Right(g.width), s, P1)];
    var moved := Advance(h.duel.bullets);
    assert |moved| == 2;
    assert HitsP1(moved[0], g.width) && HitsP2(moved[1], g.width);
    var tail := moved[1..];
    assert tail == [moved[1]] && tail[1..] == [];
    assert P1Struck(tail, g.width) == 0 && P2Struck(tail, g.width) == 1;
    assert LastStriker(tail, g.width) == Some(P1);
    assert P1Struck(moved, g.width) == 1 && P2Struck(moved, g.width) == 1;
  }

  /** As written, the opponent's trigger is still evaluated in the frame
      in which player 1's bullet resolves the duel. If it fires, the
      struck opponent is left showing the shoot pose on the result screen
      and one more bullet is in flight. */
  lemma StruckOpponentMayStillShoot(g: Game, b: Bullet, now: int, draw: int)
    requires g.phase == Duel && g.mode == Some(Arcade)
    requires g.duel.bullets == [b] && b.owner == P1 && b.x + b.speed > P2Left(g.width)
    requires now - g.duel.lastShot >= CooldownMs
    requires now - g.duel.duelStart > 100
    requires now - g.duel.lastShotTime > ReactionMs(g.mode, g.round)
    requires DrawFires(draw, g.mode, g.round)
    ensures var r := Tick(g, now, draw);
      && r.phase == Result && r.duel.winner == Some(P1)
      && r.duel.pose2 == Shoot
      && r.duel.shotsFired == g.duel.shotsFired + 1
  {
    var moved := Advance(g.duel.bullets);
    assert HitsP2(moved[0], g.width);
    var g1 := Resolve(g, moved, now);
    assert g1 == Strike(g, moved[0], now) by {
      assert moved[1..] == [];
    }
    var g2 := g1.(duel := g1.duel.(bullets := Cull(moved, g.width)));
    assert OpponentFires(g2, now, draw);
  }
}

=== FILE: session.dfy ===
/** The match layer: resolving a duel (`end_duel` with its achievement
    checks), moving between rounds (`handle_round_transition`), and
    starting a mode from the menu. */
module Session {
  import opened Basics
  import opened Achievements
  import opened GameState

  /** Whether `check_achievements`, run right after an arcade win with the
      game in state `g` at time `now`, awards `a`. */
  predicate ArcadeEarned(a: Achievement, g: Game, now: int)
  {
    match a
    case Round5 => g.round >= 5
    case Round10 => g.round >= 10
    case Perfect10 => g.arcadeWins >= 10
    case FastWinner => now - g.duel.duelStart < 1000 && g.duel.winner == Some(P1)
    case NoMiss =>
      g.duel.shotsHit == g.duel.shotsFired && g.duel.shotsFired > 0 && g.duel.winner == Some(P1)
    case FirstBlood => g.arcadeWins == 1
    case _ => false
  }

  /** `check_achievements`: afterwards a flag is set exactly when it was
      set before or its arcade condition holds; counters and date untouched. */
  function CheckArcade(g: Game, now: int): (r: Journal)
    ensures forall a :: a in r.ledger.unlocked <==> a in g.journal.ledger.unlocked || ArcadeEarned(a, g, now)
    ensures r.ledger == g.journal.ledger.(unlocked := r.ledger.unlocked)
    ensures g.journal.log <= r.log
  {
    var d := g.duel;
    var j1 := GrantIf(g.journal, g.round >= 5, Round5);
    var j2 := GrantIf(j1, g.round >= 10, Round10);
    var j3 := GrantIf(j2, g.arcadeWins >= 10, Perfect10);
    var j4 := GrantIf(j3, now - d.duelStart < 1000 && d.winner == Some(P1), FastWinner);
    var j5 := GrantIf(j4, d.shotsHit == d.shotsFired && d.shotsFired > 0 && d.winner == Some(P1), NoMiss);
    GrantIf(j5, g.arcadeWins == 1, FirstBlood)
  }

  /** One guarded `unlock_achievement` call. */
  function GrantIf(j: Journal, cond: bool, a: Achievement): (r: Journal)
    ensures r.ledger.unlocked == if cond then j.ledger.unlocked + {a} else j.ledger.unlocked
    ensures r.ledger == j.ledger.(unlocked := r.ledger.unlocked)
    ensures j.log <= r.log
  {
    if cond then Grant(j, a) else j
  }

  /** Whether the duel in `g` counts as a win for player 1. */
  predicate P1Won(g: Game)
  {
    g.duel.winner == Some(P1)
  }

  /** `end_duel`: the duel is resolved and the win is booked. A player-1
      win counts towards the daily wins and, by mode, the arcade wins or
      player 1's pvp score; any other outcome scores for player 2 in pvp.
      Only flags are ever added, and the duel itself is left as it is. */
  function EndDuel(g: Game, now: int): (r: Game)
    ensures r.phase == Result
    ensures r == g.(phase := Result, arcadeWins := r.arcadeWins, score1 := r.score1,
                    score2 := r.score2, journal := r.journal)
    ensures r.journal.ledger.dailyWins == g.journal.ledger.dailyWins + (if P1Won(g) then 1 else 0)
    ensures r.journal.ledger.dailyShots == g.journal.ledger.dailyShots
    ensures r.journal.ledger.lastPlay == g.journal.ledger.lastPlay
    ensures r.arcadeWins == g.arcadeWins + (if P1Won(g) && g.mode == Some(Arcade) then 1 else 0)
    ensures r.score1 == g.score1 + (if P1Won(g) && g.mode == Some(Pvp) then 1 else 0)
    ensures r.score2 == g.score2 + (if !P1Won(g) && g.mode == Some(Pvp) then 1 else 0)
    ensures g.journal.ledger.unlocked <= r.journal.ledger.unlocked
    ensures g.journal.log <= r.journal.log
    ensures PvpWinner in r.journal.ledger.unlocked <==>
      PvpWinner in g.journal.ledger.unlocked || (P1Won(g) && g.mode == Some(Pvp) && r.score1 >= BestOf)
    ensures P1Won(g) && g.mode == Some(Arcade) ==>
      forall a :: a in r.journal.ledger.unlocked <==>
        || a in g.journal.ledger.unlocked
        || DailyThresholdMet(a, r.journal.ledger)
        || ArcadeEarned(a, g.(arcadeWins := r.arcadeWins), now)
    ensures P1Won(g) && g.mode == Some(Pvp) ==>
      forall a :: a in r.journal.ledger.unlocked <==>
        || a in g.journal.ledger.unlocked
        || DailyThresholdMet(a, r.journal.ledger)
        || (a == PvpWinner && r.score1 >= BestOf)
    ensures P1Won(g) && g.mode == None ==>
      forall a :: a in r.journal.ledger.unlocked <==>
        a in g.journal.ledger.unlocked || DailyThresholdMet(a, r.journal.ledger)
    ensures !P1Won(g) ==> r.journal.ledger.unlocked == g.journal.ledger.unlocked
  {
    var g1 := g.(phase := Result);
    if g.duel.winner == Some(P1) then
      var j1 := Emit(g.journal, Sound(WinSfx));
      var j2 := CheckDaily(j1.(ledger := j1.ledger.(dailyWins := j1.ledger.dailyWins + 1)));
      match g.mode
      case Some(Arcade) =>
        var g2 := g1.(arcadeWins := g.arcadeWins + 1, journal := j2);
        g2.(journal := CheckArcade(g2, now))
      case Some(Pvp) =>
        var g2 := g1.(score1 := g.score1 + 1, journal := j2);
        if g2.score1 >= BestOf then g2.(journal := Unlock(g2.journal, "pvp_winner")) else g2
      case None => g1.(journal := j2)
    else
      var j1 := Emit(g.journal, Sound(LoseSfx));
      if g.mode == Some(Pvp) then g1.(score2 := g.score2 + 1, journal := j1) else g1.(journal := j1)
  }

  /** `handle_round_transition`, run when a result is acknowledged. An
      arcade win moves to the next round, or back to the menu after the
      last one; an arcade loss replays the same round. A pvp match goes on
      until either score reaches five. */
  function RoundTransition(g: Game, now: int): (r: Game)
    ensures r.journal.ledger == g.journal.ledger
    ensures r.mode == g.mode && r.score1 == g.score1 && r.score2 == g.score2
    ensures r.arcadeWins == g.arcadeWins && r.width == g.width
    ensures g.mode == Some(Arcade) && P1Won(g) ==>
      r.round == g.round + 1 && r.phase == (if g.round + 1 <= MaxRounds then Countdown else Menu)
    ensures g.mode == Some(Arcade) && !P1Won(g) ==> r.round == g.round && r.phase == Countdown
    ensures g.mode == Some(Pvp) ==>
      r.round == g.round && r.phase == (if Max(g.score1, g.score2) < BestOf then Countdown else Menu)
    ensures g.mode == None ==> r == g
    ensures g.mode.Some? && r.phase == Countdown ==> r.duel == FreshDuel && r.countdownStart == now
    ensures r.phase != Countdown ==> r.duel == g.duel
  {
    match g.mode
    case Some(Arcade) =>
      if g.duel.winner == Some(P1) then
        var g1 := g.(round := g.round + 1);
        if g1.round <= MaxRounds then StartDuel(g1, now) else g1.(phase := Menu)
      else
        StartDuel(g, now)
    case Some(Pvp) =>
      if Max(g.score1, g.score2) < BestOf then StartDuel(g, now) else g.(phase := Menu)
    case None => g
  }

  /** `start_arcade_mode` / `start_pvp_mode`: a reset session in the chosen
      mode whose first duel starts counting down at `now`. */
  function StartMode(g: Game, m: Mode, now: int): (r: Game)
    ensures r.mode == Some(m) && r.phase == Countdown
    ensures r.round == 1 && r.arcadeWins == 0 && r.score1 == 0 && r.score2 == 0
    ensures r.duel == FreshDuel && r.countdownStart == now
    ensures r.journal.ledger == g.journal.ledger && r.width == g.width
  {
    StartDuel(ResetGame(g).(mode := Some(m)), now)
  }
}
